=== FILE: README.md ===
# Taiwan stock dashboard: data-cleaning and financial-ratio core

This project models in Dafny the pure core of a small Taiwan-stock scraping and
dashboard program. The core is three transformations:

- **Era dates.** The exchange (TWSE) reports dates in the Republic-of-China
  calendar, e.g. `113/02/05`. The program turns them into `2024-02-05` by adding
  1911 to the year field. There are two variants:
  - the lenient `convert_date` of `core.py`, which never fails;
  - the inline lambda of `app.py` and `get_data.py`, whose failure drops the
    whole month.
- **Numeric cleanup.** Thousands separators are stripped from the price and
  volume columns, and the rest goes through `pd.to_numeric(..., errors='coerce')`.
  Anything that does not parse becomes NaN, the missing value, never 0. This
  runs over one month's reply in `get_stock_price_monthly`, and over several
  months, concatenated, in `fetch_stock_history` and `get_stock_data`.
- **Financial analysis.** `get_financial_analysis` computes eight percentage
  ratios from the newest period of the three statements. Every ratio is guarded
  by "denominator false → 0". It also builds a revenue/EPS trend of the (up to)
  four newest periods, ordered by year text. A failure or an empty income
  statement gives `(None, None)`.

Modules, one per file:

| module | file | models |
|---|---|---|
| `Optional` | optional.dfy | `None`/`Some` |
| `Strings` | strings.dfy | `split`, `join`, `int()`, `str()` of integers, `replace(c, '')`, Python string order |
| `Numbers` | numbers.dfy | a number is an exact real or NaN; Python truthiness; the guarded percentage |
| `EraDate` | era_date.dfy | `convert_date` and the strict lambda |
| `NumericCleanup` | numeric_cleanup.dfy | comma stripping plus `pd.to_numeric(errors='coerce')` on one cell |
| `PriceTable` | price_table.dfy | the exchange reply, `pd.DataFrame(data, columns=fields)`, date conversion and cleanup down a column |
| `MonthlyPrices` | monthly_prices.dfy | `get_stock_price_monthly` once the reply is in |
| `PriceHistory` | price_history.dfy | the month loop, skipping months and `pd.concat` |
| `TrendOrder` | trend_order.dfy | `sort_values('年份')` on the trend points |
| `FinancialAnalysis` | financial_analysis.dfy | ratios, trend and the `(None, None)` cases of `get_financial_analysis` |

Exceptions become `None` (`Option`). The HTTP replies and the yfinance
statements are parameters: `Reply.Unreachable` and a `None` statement stand for a
request that raised.

A statement line item is a `Number`, which is `Real(r)` or `NaN`. yfinance
reports an unreported line item as NaN. NaN is true in Python, so a NaN
denominator passes the `if den` guard and the ratio is NaN. A line item missing
from the index reads as 0 through `.get(key, 0)`.

EPS falls back to 0 only when the `Basic EPS` row is absent from the index
(app.py:146); a present row holding NaN for some period keeps the NaN. The
comment at app.py:145 says net income is used when EPS is missing; the code
never does that, and `TrendEpsWithoutRow` states the code's behaviour.

## Model

| member | source | states |
|---|---|---|
| Strings.Split | core.py:17 | `str.split(sep)`: one more piece than separators, no piece holds the separator, and joining the pieces gives back the text |
| Strings.SplitJoin | core.py:17 | splitting the join of separator-free pieces gives back exactly those pieces |
| Strings.ParseInt | core.py:18 | `int()` succeeds only on an optional sign followed by digits, at least one of them (a lone sign fails); a digit string reads as its decimal value, with a leading `-` as its negation and a leading `+` as itself |
| Strings.ParseIntLeadingZero | core.py:18 | a leading zero does not change the year read: `int("0113") == int("113")` |
| Strings.NatToString | app.py:88 | `str()` of a non-negative integer: a non-empty digit string whose decimal value is the number, starting with `0` only for 0, so never zero-padded |
| Strings.IntToString | app.py:143 | `str()` of any integer: the digits of the number, behind a `-` exactly when it is negative, with no leading zero except in `0` itself |
| Strings.ParseIntToString | app.py:88 | `int(str(n)) == n` for every integer |
| Strings.RemoveAll | app.py:91 | `replace(',', '')` leaves no comma, leaves comma-free text unchanged, and keeps the count of every other character |
| Strings.LexLeTotal | app.py:155 | any two year texts are comparable |
| Strings.LexLeTransitive | app.py:155 | the string order used by the sort is transitive |
| Strings.LexLeAntisymmetric | app.py:155 | texts ordered both ways are equal |
| Strings.YearTextOrder | app.py:155 | for four-digit years, text order and numeric order agree |
| Numbers.Truthy | app.py:127-134 | the `if den` guard: a number is false exactly when it is 0, so NaN is true |
| Numbers.Minus | app.py:130 | the equity `total_assets - total_liab` is NaN when either side is, otherwise the difference |
| Numbers.Percent | app.py:127-134 | the guarded ratio is 0 for a false denominator, NaN when a side is NaN, and otherwise the value whose product with the denominator is 100 × numerator |
| Numbers.PercentageUnique | app.py:127-134 | that characterisation determines the ratio |
| EraDate.ConvertDate | core.py:14-20 | total; text without `/` comes back unchanged; the result is either the input or free of `/` |
| EraDate.ConvertDateOfFields | core.py:17-18 | `Y/M/D` with slash-free fields becomes `str(int(Y)+1911)-M-D` when Y is an integer, and is unchanged otherwise |
| EraDate.ConvertDateNeedsTwoSlashes | core.py:17-20 | text whose split does not give three fields comes back unchanged |
| EraDate.ConvertDateIdempotent | core.py:16-18 | converting twice equals converting once |
| EraDate.ConvertDateEraExample | core.py:18 | `113/02/05` becomes `2024-02-05` |
| EraDate.ConvertDateUncheckedFields | core.py:18 | month and day are copied verbatim: `113/ab/cd` becomes `2024-ab-cd` |
| EraDate.ConvertDateBadYear | core.py:18-20 | for any slash-free month and day, a year field that is not an integer leaves `Y/M/D` unchanged |
| EraDate.ConvertDateBadYearExample | core.py:18-20 | `1x3/02/05` is left unchanged |
| EraDate.ConvertDateIsoUnchanged | core.py:16 | any `DDDD-DD-DD` text passes through `convert_date` unchanged, while the strict lambda of app.py:88 raises on it |
| EraDate.ConvertDateStrict | app.py:88 | the lambda fails on fewer than two `/`; its result holds no `/` |
| EraDate.ConvertDateStrictOfFields | get_data.py:31 | on `/`-joined fields, it fails exactly when the first field is not an integer; otherwise it gives the year + 1911 with the second and third fields verbatim; later fields are ignored |
| EraDate.StrictAgreesWithLenient | app.py:88 | on text with exactly two `/`, the lambda fails exactly where `convert_date` hands the text back, and otherwise both agree |
| NumericCleanup.CleanText | app.py:91 | text without a comma is parsed as it is by `pd.to_numeric` |
| NumericCleanup.CleanTextIgnoresComma | app.py:91 | a comma anywhere in the text is ignored: removing it does not change the cleaned number |
| NumericCleanup.ToNumeric | app.py:91 | a parsed number comes only from text of digits, at most one point and a leading sign, holding at least one digit |
| NumericCleanup.ToNumericOfDigits | app.py:91 | a digit string parses to its decimal value |
| NumericCleanup.ToNumericOfDecimal | app.py:91 | `whole.fraction` parses to whole + fraction / 10^len(fraction) |
| NumericCleanup.ToNumericSigned | app.py:91 | a leading `-` negates the parsed number and a leading `+` keeps it; a signed NaN stays NaN |
| NumericCleanup.ToNumericOfSignedDecimal | app.py:91 | `-whole.fraction` parses to minus that decimal value and `+whole.fraction` to the value |
| NumericCleanup.ToNumericTwoPointsExample | app.py:91 | `1.2.3` is NaN |
| NumericCleanup.StripThousands | core.py:37 | removing the commas of a thousands-grouped count leaves the digits of that count |
| NumericCleanup.CleanTextOfCount | core.py:37 | a thousands-grouped count cleans to exactly that count |
| NumericCleanup.CleanTextOfPrice | get_data.py:35 | a grouped price with a fraction cleans to integer part + fraction |
| NumericCleanup.CleanTextRejects | app.py:91 | any character other than a digit, comma, point or sign makes the cell NaN, never 0 |
| NumericCleanup.CleanTextGroupedExample | app.py:91 | `1,234,567` cleans to 1234567 |
| NumericCleanup.CleanTextPlaceholderExamples | core.py:37 | `N/A`, `--` and the empty text clean to NaN |
| PriceTable.Width | core.py:32 | the inferred width bounds every row and is reached by one |
| PriceTable.RowOf | core.py:32 | a row has a cell under every header name and no other; a name not repeated later gets the cell at its own position, or the `None` padding past the row's end |
| PriceTable.TableOf | core.py:32 | the frame exists exactly when no row is longer than the header and, if there are rows, one is exactly as long; with a header without repeats, cell (i, field j) holds data[i][j], or `None` when row i is shorter |
| PriceTable.ReplyTable | core.py:31-32 | a reply gives a table exactly when it arrived, has `stat == 'OK'`, carries `fields` and `data`, and its rows fit the header; the table keeps the header and the row count, and row i is `RowOf(fields, data[i])` |
| PriceTable.LenientDateCell | core.py:14-20 | a `None` padding cell is handed back, because the `in` test raises inside `convert_date`'s `try`; a text cell becomes `ConvertDate` of its text, so it is either unchanged or free of `/` |
| PriceTable.LenientDateCellOfFields | core.py:33 | a `Y/M/D` date cell becomes the shifted year with month and day verbatim when Y is an integer, and is handed back otherwise |
| PriceTable.LenientDates | core.py:33 | in every row the date cell becomes its `convert_date` image and every other cell is kept |
| PriceTable.LenientDatesIdempotent | core.py:33 | applying the conversion to an already converted column changes nothing |
| PriceTable.StrictDateCell | app.py:88 | the lambda raises on a `None` padding cell and on text with fewer than two `/`; a converted date holds no `/` |
| PriceTable.StrictDateCellOfText | app.py:88 | on a text cell the conversion succeeds exactly when the lambda `ConvertDateStrict` does, and then holds its result |
| PriceTable.StrictDateCellOfFields | app.py:88 | a `Y/M/D` date cell passes the lambda exactly when Y is an integer, and then becomes the shifted year with month and day verbatim |
| PriceTable.CleanCell | app.py:91 | a cleaned cell is always a number; a `None` padding cell becomes NaN because `.str` yields NaN for it; a text cell becomes `CleanText` of its text, so comma-free text is parsed as it is |
| PriceTable.CleanCellOfCount | app.py:91 | a cell holding a thousands-grouped count such as `1,234,567` cleans to that count |
| PriceTable.StrictDates | app.py:88 | the column converts exactly when every date cell converts, and then each row's date is converted |
| PriceTable.CleanColumn | app.py:90-91 | an absent column leaves the frame unchanged; a present one is cleaned in every row and nothing else changes |
| PriceTable.CleanColumns | app.py:89-91 | exactly the listed columns present in the frame are cleaned; every other cell, the header and the row count are kept |
| MonthlyPrices.PriceMonthly | core.py:31-42 | a month gives a frame exactly when the reply has `stat == 'OK'`, `fields` and `data` fit together, and there is a `日期` column; the frame keeps the reply's header and row count |
| MonthlyPrices.PriceMonthlyNeedsOk | core.py:31-39 | a reply whose `stat` is not `OK` gives `None` |
| MonthlyPrices.CleanMonth | core.py:33-37 | the date column goes through `convert_date`, exactly the six listed columns present are cleaned, and every other cell, the header and the row count are kept |
| MonthlyPrices.PriceMonthlyCell | core.py:32-37 | each cell relates to the reply's row: a converted date, one of six cleaned numbers (including 成交金額), or the received text |
| PriceHistory.HistoryMonth | app.py:86-92 | a month adds a table exactly when its reply gives one with a date column and every date passes the strict lambda; the table keeps the reply's header and row count |
| PriceHistory.HistoryMonthSpec | app.py:86-92 | a month with a date column succeeds exactly when every date passes the strict lambda; then dates are converted, the five listed columns cleaned, and the rest kept |
| PriceHistory.CleanHistory | app.py:88-91 | one month's conversions succeed exactly when every date cell passes the strict lambda; then the dates are converted, exactly the five listed columns are cleaned, and the header and row count are kept |
| PriceHistory.HistoryMonthNeedsDates | get_data.py:28-31 | a reply that is not `OK`, or has no date column, contributes nothing |
| PriceHistory.HistoryMonthSucceeds | app.py:86-92 | an `OK` reply with a date column whose every date is `Y/M/D` with an integer Y is never skipped |
| PriceHistory.HistoryMonthCell | app.py:86-92 | each cell of a month that succeeds relates to the reply's row: the lambda's date, one of the five cleaned numbers, or the received text |
| PriceHistory.AddColumns | get_data.py:44 | the concatenated header holds exactly the columns of the parts |
| PriceHistory.AddColumnsExtends | get_data.py:44 | the union keeps the earlier columns as its prefix and appends only names of the new header not already present |
| PriceHistory.AddColumnsOrder | get_data.py:44 | the appended names come once each, in the order of their first appearance in the new header |
| PriceHistory.AddColumnsNoDuplicates | get_data.py:44 | a header without repeats stays without repeats |
| PriceHistory.AddColumnsDisjoint | get_data.py:44 | new column names are appended in their order |
| PriceHistory.AddColumnsCovered | get_data.py:44 | columns already present add nothing |
| PriceHistory.Concat | get_data.py:44 | the concatenation is every month's rows in month order, each with NaN in the columns its month lacked; its header holds exactly the names found in some month's header, each once, in the order of first appearance across the months |
| PriceHistory.ConcatSharedHeader | app.py:97 | months with one duplicate-free header concatenate to their rows in order under that header |
| PriceHistory.History | app.py:96-98 | there is no result exactly when no month succeeded; otherwise it is the successful months' rows in month order, filled with NaN to the union of their columns; that header holds each name of a successful month's header once, in first-appearance order |
| PriceHistory.Headers | get_data.py:44 | the run of month headers holds exactly the names of the months' columns |
| PriceHistory.AddColumnsAppend | get_data.py:44 | taking the union with two headers in turn is taking it with their concatenation |
| PriceHistory.UnionOfHeaders | get_data.py:44 | the union of a run of headers holds each of its names exactly once, in first-appearance order |
| PriceHistory.HistorySkipsFailedMonth | get_data.py:23-41 | a month that is skipped or raises leaves the result as if it had not been requested |
| PriceHistory.HistorySharedHeader | get_data.py:43-44 | with one shared header, the result is the successful months' rows in month order |
| TrendOrder.Insert | app.py:155 | inserting into a year-ordered sequence keeps it ordered and adds exactly that point |
| TrendOrder.SortByYear | app.py:155 | the sort result is ordered by year text under `Strings.LexLe`, the model of Python's `str <=`, and is a permutation of its input |
| TrendOrder.InsertAfterAll | app.py:155 | a point later than all others goes last |
| TrendOrder.SortDescending | app.py:139-155 | newest-first points come out reversed |
| TrendOrder.SortedUnique | app.py:155 | two year-ordered permutations of points whose years identify them are equal |
| FinancialAnalysis.Get | app.py:118-124 | `.get(key, 0)`: the reported value, NaN included, or 0 when the line item is absent |
| FinancialAnalysis.PointOf | app.py:143-146 | a period's point is its year as text, its revenue and its EPS, each 0 when its row is absent from the index |
| FinancialAnalysis.LatestRatios | app.py:118-134 | each of the eight ratios is the guarded percentage of its numerator and denominator, read with `.get(key, 0)`; ROE's denominator is assets − liabilities |
| FinancialAnalysis.MarginsFollowRevenue | app.py:127-129 | gross, operating and net margin are 0 when revenue is absent or 0, and NaN when revenue is NaN |
| FinancialAnalysis.DebtRatioWithinHundred | app.py:132 | with 0 ≤ liabilities ≤ assets and assets > 0, the debt ratio is between 0 and 100 |
| FinancialAnalysis.Leading | app.py:139-152 | `min(4, #columns)` points in column order; point j carries column j's year text and its revenue and EPS as `.get` reads them, 0 for an absent row |
| FinancialAnalysis.LeadingOfFirstFour | app.py:139 | statements that agree on their first four columns give the same points: later columns are never read |
| FinancialAnalysis.Trend | app.py:139-155 | the trend has `min(4, #columns)` points, is ordered by year text, and is a permutation of the leading points |
| FinancialAnalysis.TrendRowsFromPeriods | app.py:142-152 | every trend point carries one leading period's year, its revenue and its EPS, each 0 when its row is absent |
| FinancialAnalysis.TrendEpsWithoutRow | app.py:145-146 | without a `Basic EPS` row every EPS is 0, never the net income |
| FinancialAnalysis.TrendDetermined | app.py:155 | when the leading periods have distinct years, every year-ordered rearrangement of their points is the trend |
| FinancialAnalysis.TrendOfNewestFirst | app.py:139-155 | with four-digit years strictly decreasing, the trend is the leading points reversed, oldest first |
| FinancialAnalysis.TrendExample | app.py:139-155 | five periods from 2024 down to 2020 give the year texts "2021", "2022", "2023", "2024" in that order |
| FinancialAnalysis.Analyze | app.py:103-161 | `(None, None)` exactly when a statement could not be fetched, the income statement is empty (`IsEmpty`, `DataFrame.empty`: no columns or no rows), or the balance sheet or cash flow has no column; otherwise the ratios of column 0 of each statement and the trend |

## Left out

- HTTP requests, yfinance `Ticker`, translation, the Streamlit UI, charts and `st.cache_data` are left out. They are I/O or presentation; their results are parameters (`Reply`, `Option<Statement>`).
- `time.sleep`, the CSV file written by get_data.py:45-51, the `print` logging and `verify=False` are left out. They are I/O with no effect on the values.
- `pd.date_range` month generation (app.py:79, get_data.py:14) is left out. It depends on the clock; the month list is the `replies` sequence.
- Floating-point rounding and overflow to infinity are not modelled. Numbers are exact reals, plus NaN.
- Strings.ParseInt: accepts only an optional sign followed by ASCII digits. Python's `int()` also takes surrounding whitespace, `_` separators and non-ASCII digits; exchange dates do not contain them.
- NumericCleanup.ToNumeric: accepts only an optional sign, digits and one point. `pd.to_numeric` also reads exponents, surrounding whitespace and the words `inf`/`nan`; the exchange does not send them.
- Non-string JSON cells are not modelled: cells are strings only. The exchange sends every cell of `data` as text.
- Repeated field names are not modelled faithfully: in `RowOf` the later cell wins. pandas would keep both columns and make `df[col]` a frame.
- Statement column labels are reduced to the year of their date. Two columns with the same date, which would make `fin.loc[...]` return a series, are not modelled.
- FinancialAnalysis.Trend: the order among points sharing a year is left open. pandas' default sort is not stable; `TrendDetermined` pins the order down when the years differ.

=== FILE: era_date.dfy ===
/**
  Republic-of-China calendar dates `Y/M/D` (Gregorian year = Y + 1911) turned
  into `YYYY-MM-DD` text. Two variants: the lenient `convert_date` of core.py,
  which never raises and hands back what it cannot convert, and the inline lambda
  of app.py and get_data.py, which raises (here: `None`) on anything it cannot read.
 */
module EraDate {
  import opened Optional
  import opened Strings

  /** Era year 1 is Gregorian 1912. */
  const EraOffset: int := 1911

  /** The converted text: the shifted year, then month and day copied verbatim. */
  function IsoText(year: int, month: string, day: string): string
  {
    IntToString(year + EraOffset) + "-" + month + "-" + day
  }

  lemma IsoTextHasNoSlash(year: int, month: string, day: string)
    requires '/' !in month && '/' !in day
    ensures '/' !in IsoText(year, month, day)
  {
    var y := IntToString(year + EraOffset);
    assert '/' !in y by {
      forall i | 0 <= i < |y| ensures y[i] != '/' {
        assert IsDigit(y[i]) || y[i] == '-';
      }
    }
    var r := IsoText(year, month, day);
    forall i | 0 <= i < |r| ensures r[i] != '/' {
      if i < |y| {
        assert r[i] == y[i];
      } else if i == |y| {
        assert r[i] == '-';
      } else if i < |y| + 1 + |month| {
        assert r[i] == month[i - |y| - 1];
      } else if i == |y| + 1 + |month| {
        assert r[i] == '-';
      } else {
        assert r[i] == day[i - |y| - 2 - |month|];
      }
    }
  }

  /**
    `convert_date` (core.py): text without `/` is returned as is; text that splits
    on `/` into exactly three fields whose first reads as an integer is converted;
    anything else (wrong field count, non-integer year) is returned unchanged,
    which is where the source's `except` lands. Month and day are never checked.
   */
  function ConvertDate(s: string): (r: string)
    ensures '/' !in s ==> r == s
    ensures r == s || '/' !in r
  {
    if '/' !in s then s
    else
      var parts := Split(s, '/');
      if |parts| != 3 then s
      else match ParseInt(parts[0])
        case None => s
        case Some(year) =>
          IsoTextHasNoSlash(year, parts[1], parts[2]);
          IsoText(year, parts[1], parts[2])
  }

  /** Converting twice converts once: a converted date holds no `/` left to convert. */
  lemma ConvertDateIdempotent(s: string)
    ensures ConvertDate(ConvertDate(s)) == ConvertDate(s)
  {
  }

  /**
    Three slash-free fields joined by `/` convert exactly when the first is an
    integer, and then to the shifted year with month and day copied verbatim.
   */
  lemma ConvertDateOfFields(year: string, month: string, day: string)
    requires '/' !in year && '/' !in month && '/' !in day
    ensures ConvertDate(year + "/" + month + "/" + day) ==
      match ParseInt(year)
      case Some(y) => IsoText(y, month, day)
      case None => year + "/" + month + "/" + day
  {
    var s := year + "/" + month + "/" + day;
    assert Join([year, month, day], '/') == s by {
      assert Join([year, month, day][1..], '/') == month + "/" + day;
    }
    SplitJoin([year, month, day], '/');
    assert s[|year|] == '/';
  }

  /** Text with one `/`, or with three or more, is never converted. */
  lemma ConvertDateNeedsTwoSlashes(s: string)
    requires Occurrences(s, '/') != 2
    ensures ConvertDate(s) == s
  {
  }

  lemma YearTexts()
    ensures ParseInt("113") == Some(113)
    ensures IntToString(2024) == "2024"
  {
    EraYearText();
    GregorianYearText();
  }

  lemma EraYearText()
    ensures ParseInt("113") == Some(113)
  {
    assert AllDigits("113");
    assert "113"[..2] == "11" && "11"[..1] == "1" && "1"[..0] == "";
  }

  lemma GregorianYearText()
    ensures IntToString(2024) == "2024"
  {
    assert NatToString(2) == "2";
    assert NatToString(20) == "20";
    assert NatToString(202) == "202";
  }

  /** The worked example: era year 113 with month and day `02` and `05`. */
  lemma ConvertDateEraExample()
    ensures ConvertDate("113/02/05") == "2024-02-05"
  {
    YearTexts();
    assert IsoText(113, "02", "05") == "2024-02-05" by {
      assert IntToString(113 + EraOffset) == "2024";
    }
    assert "113" + "/" + "02" + "/" + "05" == "113/02/05";
    ConvertDateOfFields("113", "02", "05");
  }

  /** Month and day are copied verbatim, digits or not. */
  lemma ConvertDateUncheckedFields()
    ensures ConvertDate("113/ab/cd") == "2024-ab-cd"
  {
    YearTexts();
    assert IsoText(113, "ab", "cd") == "2024-ab-cd" by {
      assert IntToString(113 + EraOffset) == "2024";
    }
    assert "113" + "/" + "ab" + "/" + "cd" == "113/ab/cd";
    ConvertDateOfFields("113", "ab", "cd");
  }

  /** A year field that is not an integer leaves the text as it was, whatever the month and day. */
  lemma ConvertDateBadYear(year: string, month: string, day: string)
    requires '/' !in year && '/' !in month && '/' !in day
    requires ParseInt(year).None?
    ensures ConvertDate(year + "/" + month + "/" + day) == year + "/" + month + "/" + day
  {
    ConvertDateOfFields(year, month, day);
  }

  /** For instance `1x3/02/05` stays as it is. */
  lemma ConvertDateBadYearExample()
    ensures ConvertDate("1x3/02/05") == "1x3/02/05"
  {
    assert ParseInt("1x3").None? by {
      assert !IsDigit("1x3"[1]);
    }
    assert "1x3" + "/" + "02" + "/" + "05" == "1x3/02/05";
    ConvertDateBadYear("1x3", "02", "05");
  }

  /** Text shaped `DDDD-DD-DD`, as `convert_date` and the lambda produce for a four-digit year. */
  predicate IsIsoShape(s: string) {
    && |s| == 10 && s[4] == '-' && s[7] == '-'
    && forall i | 0 <= i < 10 && i != 4 && i != 7 :: IsDigit(s[i])
  }

  /**
    An ISO date passes through `convert_date` unchanged, while the strict
    lambda raises on it: it has no `/` to split on.
   */
  lemma ConvertDateIsoUnchanged(s: string)
    requires IsIsoShape(s)
    ensures ConvertDate(s) == s
    ensures ConvertDateStrict(s).None?
  {
    assert '/' !in s by {
      forall i | 0 <= i < |s| ensures s[i] != '/' {
        if i != 4 && i != 7 { assert IsDigit(s[i]); }
      }
    }
    NoSeparatorNoOccurrence(s, '/');
  }

  /**
    The inline lambda of app.py and get_data.py:
    `str(int(x.split('/')[0]) + 1911) + '-' + x.split('/')[1] + '-' + x.split('/')[2]`.
    `None` where it raises: a first field that is not an integer (`ValueError`)
    or fewer than three fields (`IndexError`). Fields past the third are ignored.
   */
  function ConvertDateStrict(s: string): (r: Option<string>)
    ensures Occurrences(s, '/') < 2 ==> r.None?
    ensures r.Some? ==> '/' !in r.value
  {
    var parts := Split(s, '/');
    match ParseInt(parts[0])
    case None => None
    case Some(year) =>
      if |parts| < 3 then None
      else
        IsoTextHasNoSlash(year, parts[1], parts[2]);
        Some(IsoText(year, parts[1], parts[2]))
  }

  /**
    The strict lambda on `/`-joined fields: it succeeds exactly when the first
    field is an integer, converts like `convert_date` on the first three fields,
    and ignores any further fields.
   */
  lemma ConvertDateStrictOfFields(fields: seq<string>)
    requires |fields| >= 3
    requires forall i | 0 <= i < |fields| :: '/' !in fields[i]
    ensures ConvertDateStrict(Join(fields, '/')) ==
      match ParseInt(fields[0])
      case Some(y) => Some(IsoText(y, fields[1], fields[2]))
      case None => None
  {
    SplitJoin(fields, '/');
  }

  /**
    Where the text has exactly the `Y/M/D` shape the two variants agree: the
    strict one raises exactly when the lenient one hands the text back, and
    otherwise both give the same date.
   */
  lemma StrictAgreesWithLenient(s: string)
    requires Occurrences(s, '/') == 2
    ensures ConvertDateStrict(s).None? <==> ConvertDate(s) == s
    ensures ConvertDateStrict(s).Some? ==> ConvertDateStrict(s).value == ConvertDate(s)
  {
    assert '/' in s by {
      if '/' !in s { NoSeparatorNoOccurrence(s, '/'); }
    }
  }
}

=== FILE: financial_analysis.dfy ===
/**
  `get_financial_analysis` (app.py): eight ratios from the latest period of the
  income statement, balance sheet and cash-flow statement, and the revenue/EPS
  trend of the (up to) four latest periods ordered by year. Fetching the three
  statements is a parameter: `None` stands for a fetch that raised.
 */
module FinancialAnalysis {
  import opened Optional
  import opened Numbers
  import opened Strings
  import opened TrendOrder

  /** One column of a yfinance statement: the year of its period-end date and its line items. */
  datatype Period = Period(year: int, items: map<string, Number>)

  /** A statement: its index of line-item names and its periods, newest first as yfinance reports them. */
  datatype Sheet = Sheet(index: set<string>, periods: seq<Period>)

  /** Every period holds a value (possibly NaN) for exactly the index's line items. */
  predicate WellFormed(s: Sheet) {
    forall j | 0 <= j < |s.periods| :: s.periods[j].items.Keys == s.index
  }

  type Statement = s: Sheet | WellFormed(s) witness Sheet({}, [])

  /** `DataFrame.empty`: no columns or no rows. */
  predicate IsEmpty(s: Statement) {
    |s.periods| == 0 || |s.index| == 0
  }

  const TotalRevenue: string := "Total Revenue"
  const NetIncome: string := "Net Income"
  const GrossProfit: string := "Gross Profit"
  const OperatingIncome: string := "Operating Income"
  const BasicEps: string := "Basic EPS"
  const TotalAssets: string := "Total Assets"
  const TotalLiabilities: string := "Total Liabilities Net Minority Interest"
  const CurrentAssets: string := "Current Assets"
  const CurrentLiabilities: string := "Current Liabilities"
  const OperatingCashFlow: string := "Operating Cash Flow"

  /** `series.get(key, 0)`: the reported value (NaN included), or 0 when the line item is absent. */
  function Get(items: map<string, Number>, key: string): (v: Number)
    ensures key in items ==> v == items[key]
    ensures key !in items ==> v == Real(0.0)
  {
    if key in items then items[key] else Real(0.0)
  }

  /** 毛利率, 營業利益率, 淨利率, ROE, 流動比率, 負債比率, ROA, 現金流對淨利比. */
  datatype Ratios = Ratios(
    grossMargin: Number, operatingMargin: Number, netMargin: Number, roe: Number,
    currentRatio: Number, debtRatio: Number, roa: Number, cashToIncome: Number)

  /**
    The ratios of one period (`iloc[:, 0]` of each statement): each is a
    hundred times numerator over denominator, 0 when the denominator is 0 or
    absent, NaN when either side is NaN. ROE divides by equity, assets minus
    liabilities.
   */
  function LatestRatios(fin: map<string, Number>, bs: map<string, Number>, cf: map<string, Number>): (r: Ratios)
    ensures IsPercentage(r.grossMargin, Get(fin, GrossProfit), Get(fin, TotalRevenue))
    ensures IsPercentage(r.operatingMargin, Get(fin, OperatingIncome), Get(fin, TotalRevenue))
    ensures IsPercentage(r.netMargin, Get(fin, NetIncome), Get(fin, TotalRevenue))
    ensures IsPercentage(r.roe, Get(fin, NetIncome), Minus(Get(bs, TotalAssets), Get(bs, TotalLiabilities)))
    ensures IsPercentage(r.currentRatio, Get(bs, CurrentAssets), Get(bs, CurrentLiabilities))
    ensures IsPercentage(r.debtRatio, Get(bs, TotalLiabilities), Get(bs, TotalAssets))
    ensures IsPercentage(r.roa, Get(fin, NetIncome), Get(bs, TotalAssets))
    ensures IsPercentage(r.cashToIncome, Get(cf, OperatingCashFlow), Get(fin, NetIncome))
  {
    var revenue := Get(fin, TotalRevenue);
    var netIncome := Get(fin, NetIncome);
    var assets := Get(bs, TotalAssets);
    var liabilities := Get(bs, TotalLiabilities);
    Ratios(
      Percent(Get(fin, GrossProfit), revenue),
      Percent(Get(fin, OperatingIncome), revenue),
      Percent(netIncome, revenue),
      Percent(netIncome, Minus(assets, liabilities)),
      Percent(Get(bs, CurrentAssets), Get(bs, CurrentLiabilities)),
      Percent(liabilities, assets),
      Percent(netIncome, assets),
      Percent(Get(cf, OperatingCashFlow), netIncome))
  }

  /** Without revenue (absent or zero) the three margins are 0; with a NaN revenue they are NaN. */
  lemma MarginsFollowRevenue(fin: map<string, Number>, bs: map<string, Number>, cf: map<string, Number>)
    ensures var r := LatestRatios(fin, bs, cf);
      && (TotalRevenue !in fin || fin[TotalRevenue] == Real(0.0) ==>
            r.grossMargin == r.operatingMargin == r.netMargin == Real(0.0))
      && (TotalRevenue in fin && fin[TotalRevenue].NaN? ==>
            r.grossMargin.NaN? && r.operatingMargin.NaN? && r.netMargin.NaN?)
  {
  }

  /**
    A solvent balance sheet (liabilities between zero and positive assets)
    has a debt ratio between 0 and 100.
   */
  lemma DebtRatioWithinHundred(fin: map<string, Number>, bs: map<string, Number>, cf: map<string, Number>)
    requires TotalAssets in bs && TotalLiabilities in bs
    requires bs[TotalAssets].Real? && bs[TotalLiabilities].Real?
    requires 0.0 <= bs[TotalLiabilities].value <= bs[TotalAssets].value && bs[TotalAssets].value > 0.0
    ensures var d := LatestRatios(fin, bs, cf).debtRatio;
      d.Real? && 0.0 <= d.value <= 100.0
  {
    var d := LatestRatios(fin, bs, cf).debtRatio;
    assert IsPercentage(d, Get(bs, TotalLiabilities), Get(bs, TotalAssets));
    PercentageOfPart(d, bs[TotalLiabilities], bs[TotalAssets]);
  }

  /** A part of a positive whole is between 0 and 100 percent of it. */
  lemma PercentageOfPart(r: Number, part: Number, whole: Number)
    requires IsPercentage(r, part, whole)
    requires part.Real? && whole.Real? && 0.0 <= part.value <= whole.value && whole.value > 0.0
    ensures r.Real? && 0.0 <= r.value <= 100.0
  {
    PercentBetween(r.value, whole.value, part.value);
  }

  lemma ProductSign(y: real, a: real)
    requires a > 0.0
    ensures y < 0.0 ==> y * a < 0.0
    ensures y > 0.0 ==> y * a > 0.0
  {
  }

  lemma PercentBetween(x: real, a: real, l: real)
    requires a > 0.0 && 0.0 <= l <= a && x * a == 100.0 * l
    ensures 0.0 <= x <= 100.0
  {
    ProductSign(x, a);
    ProductSign(x - 100.0, a);
    assert (x - 100.0) * a == x * a - 100.0 * a;
  }

  /** The trend row of one period: its year as text, its revenue and its EPS, 0 for a line item missing from the index. */
  function PointOf(fin: Statement, j: nat): (p: TrendPoint)
    requires j < |fin.periods|
    ensures p.year == IntToString(fin.periods[j].year)
    ensures p.revenue == Get(fin.periods[j].items, TotalRevenue)
    ensures p.eps == Get(fin.periods[j].items, BasicEps)
  {
    var items := fin.periods[j].items;
    TrendPoint(
      IntToString(fin.periods[j].year),
      if TotalRevenue in fin.index then items[TotalRevenue] else Real(0.0),
      if BasicEps in fin.index then items[BasicEps] else Real(0.0))
  }

  function Min(a: nat, b: nat): nat {
    if a < b then a else b
  }

  /** `trend_data` as the loop over `fin.columns[:4]` builds it. */
  function Leading(fin: Statement): (ps: seq<TrendPoint>)
    ensures |ps| == Min(4, |fin.periods|)
    ensures forall j | 0 <= j < |ps| ::
      && ps[j].year == IntToString(fin.periods[j].year)
      && ps[j].revenue == Get(fin.periods[j].items, TotalRevenue)
      && ps[j].eps == Get(fin.periods[j].items, BasicEps)
  {
    seq(Min(4, |fin.periods|), j requires 0 <= j < Min(4, |fin.periods|) => PointOf(fin, j))
  }

  /** Only the four latest periods matter: statements that agree on them have the same leading points. */
  lemma LeadingOfFirstFour(a: Statement, b: Statement)
    requires Min(4, |a.periods|) == Min(4, |b.periods|)
    requires a.periods[..Min(4, |a.periods|)] == b.periods[..Min(4, |b.periods|)]
    ensures Leading(a) == Leading(b)
  {
    var n := Min(4, |a.periods|);
    forall j | 0 <= j < n ensures Leading(a)[j] == Leading(b)[j] {
      assert a.periods[j] == a.periods[..n][j] == b.periods[..n][j] == b.periods[j];
    }
  }

  /** `df_trend`: the leading periods' points, ordered by year text. */
  function Trend(fin: Statement): (t: seq<TrendPoint>)
    ensures |t| == Min(4, |fin.periods|)
    ensures Sorted(t)
    ensures multiset(t) == multiset(Leading(fin))
  {
    var t := SortByYear(Leading(fin));
    assert |t| == |multiset(t)| == |multiset(Leading(fin))|;
    t
  }

  /** A point carries period j's year text and the revenue and EPS `.get` reads there. */
  predicate FromPeriod(p: TrendPoint, fin: Statement, j: nat)
    requires j < |fin.periods|
  {
    && p.year == IntToString(fin.periods[j].year)
    && p.revenue == Get(fin.periods[j].items, TotalRevenue)
    && p.eps == Get(fin.periods[j].items, BasicEps)
  }

  /** The point comes from one of the four latest periods. */
  predicate FromLeadingPeriod(p: TrendPoint, fin: Statement) {
    exists j | 0 <= j < Min(4, |fin.periods|) :: FromPeriod(p, fin, j)
  }

  /**
    Every trend row is one of the four latest periods: its year, and the
    revenue and EPS `.get` would read there. A missing `Basic EPS` row gives 0,
    never the net income.
   */
  lemma TrendRowsFromPeriods(fin: Statement)
    ensures forall k | 0 <= k < |Trend(fin)| :: FromLeadingPeriod(Trend(fin)[k], fin)
  {
    var t := Trend(fin);
    var ps := Leading(fin);
    forall k | 0 <= k < |t| ensures FromLeadingPeriod(t[k], fin) {
      assert t[k] in multiset(t);
      assert t[k] in ps;
      var j :| 0 <= j < |ps| && ps[j] == t[k];
      assert FromPeriod(t[k], fin, j);
    }
  }

  /** With no `Basic EPS` line item, every EPS of the trend is 0. */
  lemma TrendEpsWithoutRow(fin: Statement)
    requires BasicEps !in fin.index
    ensures forall k | 0 <= k < |Trend(fin)| :: Trend(fin)[k].eps == Real(0.0)
  {
    TrendRowsFromPeriods(fin);
    forall k | 0 <= k < |Trend(fin)| ensures Trend(fin)[k].eps == Real(0.0) {
      assert FromLeadingPeriod(Trend(fin)[k], fin);
      var j :| 0 <= j < Min(4, |fin.periods|) && FromPeriod(Trend(fin)[k], fin, j);
      assert fin.periods[j].items.Keys == fin.index;
    }
  }

  /** Different years give different year texts. */
  lemma YearTextInjective(a: int, b: int)
    requires a != b
    ensures IntToString(a) != IntToString(b)
  {
    ParseIntToString(a);
    ParseIntToString(b);
  }

  /** Among the leading points, distinct period years make the year text identify the point. */
  lemma LeadingYearsIdentify(fin: Statement)
    requires forall i, j | 0 <= i < j < Min(4, |fin.periods|) :: fin.periods[i].year != fin.periods[j].year
    ensures YearsIdentify(multiset(Leading(fin)))
  {
    var ps := Leading(fin);
    forall p: TrendPoint, q: TrendPoint | p in multiset(ps) && q in multiset(ps) && p.year == q.year ensures p == q {
      assert p in ps && q in ps;
      var i :| 0 <= i < |ps| && ps[i] == p;
      var j :| 0 <= j < |ps| && ps[j] == q;
      LeadingYearAt(fin, i, j);
    }
  }

  lemma LeadingYearAt(fin: Statement, i: nat, j: nat)
    requires forall i, j | 0 <= i < j < Min(4, |fin.periods|) :: fin.periods[i].year != fin.periods[j].year
    requires i < Min(4, |fin.periods|) && j < Min(4, |fin.periods|)
    requires Leading(fin)[i].year == Leading(fin)[j].year
    ensures i == j
  {
    assert Leading(fin)[i].year == IntToString(fin.periods[i].year);
    assert Leading(fin)[j].year == IntToString(fin.periods[j].year);
    if i < j {
      YearTextInjective(fin.periods[i].year, fin.periods[j].year);
    } else if j < i {
      YearTextInjective(fin.periods[j].year, fin.periods[i].year);
    }
  }

  /**
    When the four latest periods have different years, any year-ordered
    rearrangement of their points (whatever algorithm pandas uses) is the trend.
   */
  lemma TrendDetermined(fin: Statement, t: seq<TrendPoint>)
    requires forall i, j | 0 <= i < j < Min(4, |fin.periods|) :: fin.periods[i].year != fin.periods[j].year
    requires Sorted(t) && multiset(t) == multiset(Leading(fin))
    ensures t == Trend(fin)
  {
    LeadingYearsIdentify(fin);
    SortedUnique(Trend(fin), t);
  }

  /**
    yfinance lists periods newest first; with four-digit years strictly
    decreasing, the trend is the four latest periods in reverse, oldest first.
   */
  lemma TrendOfNewestFirst(fin: Statement)
    requires forall j | 0 <= j < |fin.periods| :: 1000 <= fin.periods[j].year <= 9999
    requires forall i, j | 0 <= i < j < |fin.periods| :: fin.periods[i].year > fin.periods[j].year
    ensures Trend(fin) == Reverse(Leading(fin))
  {
    var ps := Leading(fin);
    forall i, j | 0 <= i < j < |ps| ensures !LexLe(ps[i].year, ps[j].year) {
      YearTextOrder(fin.periods[i].year, fin.periods[j].year);
    }
    SortDescending(ps);
  }

  /** Five annual periods 2024 down to 2020: the trend keeps the four latest, oldest first. */
  lemma TrendExample(fin: Statement)
    requires |fin.periods| == 5
    requires forall j | 0 <= j < 5 :: fin.periods[j].year == 2024 - j
    ensures var t := Trend(fin);
      && |t| == 4
      && t[0].year == "2021" && t[1].year == "2022"
      && t[2].year == "2023" && t[3].year == "2024"
  {
    TrendOfNewestFirst(fin);
    TrendYearTexts();
  }

  /** The decimal texts `str()` gives the four years of the example. */
  lemma TrendYearTexts()
    ensures IntToString(2021) == "2021" && IntToString(2022) == "2022"
    ensures IntToString(2023) == "2023" && IntToString(2024) == "2024"
  {
    assert NatToString(2) == "2";
    assert NatToString(20) == "20";
    assert NatToString(202) == "202";
  }

  /** What the function returns in the `try`: the ratios and the trend. */
  datatype Analysis = Analysis(ratios: Ratios, trend: seq<TrendPoint>)

  /**
    `get_financial_analysis`: `(None, None)` (here `None`) when a statement
    could not be fetched, when the income statement is empty, or when the
    balance sheet or cash-flow statement has no period for `iloc[:, 0]`.
   */
  function Analyze(fin: Option<Statement>, bs: Option<Statement>, cf: Option<Statement>): (r: Option<Analysis>)
    ensures r.None? <==>
      || fin.None? || bs.None? || cf.None?
      || IsEmpty(fin.value) || |bs.value.periods| == 0 || |cf.value.periods| == 0
    ensures r.Some? ==>
      && r.value.ratios == LatestRatios(fin.value.periods[0].items, bs.value.periods[0].items, cf.value.periods[0].items)
      && r.value.trend == Trend(fin.value)
      && 1 <= |r.value.trend| <= 4
  {
    match (fin, bs, cf)
    case (Some(f), Some(b), Some(c)) =>
      if IsEmpty(f) || |b.periods| == 0 || |c.periods| == 0 then None
      else Some(Analysis(LatestRatios(f.periods[0].items, b.periods[0].items, c.periods[0].items), Trend(f)))
    case _ => None
  }
}

=== FILE: monthly_prices.dfy ===
/**
  core.py `get_stock_price_monthly` once its request has returned: one month's
  reply becomes a table whose dates pass through the lenient `convert_date` and
  whose six numeric columns are cleaned; any other outcome is `None`.
 */
module MonthlyPrices {
  import opened Optional
  import opened PriceTable

  lemma MonthlyColumnsDistinct()
    ensures NoDuplicates(MonthlyColumns)
    ensures DateColumn !in MonthlyColumns
  {
  }

  /** The month's cleaned table, or `None` for a failed request, `stat != 'OK'`, or a missing key. */
  function PriceMonthly(reply: Reply): (r: Option<Table>)
    ensures r.Some? <==> WellFormedReply(reply) && DateColumn in reply.fields.value
    ensures r.Some? ==> r.value.columns == reply.fields.value && |r.value.rows| == |reply.data.value|
  {
    match ReplyTable(reply)
    case None => None
    case Some(t) =>
      if DateColumn !in t.columns then None else Some(CleanMonth(t))
  }

  /**
    The conversions of the month's table: `convert_date` down the date column,
    then the six listed columns cleaned; every other cell is kept.
   */
  function CleanMonth(t: Table): (r: Table)
    requires DateColumn in t.columns
    ensures r.columns == t.columns && |r.rows| == |t.rows|
    ensures forall i, k | 0 <= i < |t.rows| && k in t.rows[i] ::
      && k in r.rows[i]
      && r.rows[i][k] == if k == DateColumn then LenientDateCell(t.rows[i][k])
                         else if k in MonthlyColumns then CleanCell(t.rows[i][k])
                         else t.rows[i][k]
  {
    MonthlyColumnsDistinct();
    CleanedMonthCells(t);
    CleanColumns(LenientDates(t), MonthlyColumns)
  }

  /** A reply the exchange answered with `stat == 'OK'`, all keys present, and rows that fit the header. */
  predicate WellFormedReply(reply: Reply) {
    && reply.Reply?
    && reply.stat == Some("OK")
    && reply.fields.Some?
    && reply.data.Some?
    && RowsFit(reply.fields.value, reply.data.value)
  }

  /** Cell by cell, the cleaned month: converted dates, six cleaned columns, the rest as received. */
  lemma CleanedMonthCells(t: Table)
    requires DateColumn in t.columns
    ensures NoDuplicates(MonthlyColumns)
    ensures
      var r := CleanColumns(LenientDates(t), MonthlyColumns);
      && r.columns == t.columns
      && |r.rows| == |t.rows|
      && forall i, k | 0 <= i < |t.rows| && k in t.rows[i] ::
        && k in r.rows[i]
        && r.rows[i][k] == if k == DateColumn then LenientDateCell(t.rows[i][k])
                           else if k in MonthlyColumns then CleanCell(t.rows[i][k])
                           else t.rows[i][k]
  {
    MonthlyColumnsDistinct();
    var d := LenientDates(t);
    var r := CleanColumns(d, MonthlyColumns);
    forall i, k | 0 <= i < |t.rows| && k in t.rows[i]
      ensures k in r.rows[i]
      ensures r.rows[i][k] == if k == DateColumn then LenientDateCell(t.rows[i][k])
                              else if k in MonthlyColumns then CleanCell(t.rows[i][k])
                              else t.rows[i][k]
    {
      assert k in d.rows[i];
    }
  }

  /**
    One cell of the table against the reply's row `i`: a date cell is what
    `convert_date` makes of the received text, a cell of the six listed columns
    holds the cleaned number, and every other cell is the received text (or the
    `None` of a padded short row).
   */
  lemma PriceMonthlyCell(reply: Reply, i: nat, k: string)
    requires WellFormedReply(reply) && DateColumn in reply.fields.value
    requires i < |reply.data.value| && k in reply.fields.value
    ensures
      var row := RowOf(reply.fields.value, reply.data.value[i]);
      && PriceMonthly(reply).Some?
      && var t := PriceMonthly(reply).value;
      && i < |t.rows| && k in row && k in t.rows[i]
      && t.rows[i][k] == if k == DateColumn then LenientDateCell(row[k])
                         else if k in MonthlyColumns then CleanCell(row[k])
                         else row[k]
  {
    var table := ReplyTable(reply).value;
    assert table.rows[i] == RowOf(table.columns, reply.data.value[i]);
    assert PriceMonthly(reply) == Some(CleanMonth(table));
  }

  /** Replies other than `stat == 'OK'` give `None`, whatever rows they carry. */
  lemma PriceMonthlyNeedsOk(reply: Reply)
    requires reply.Reply? && reply.stat != Some("OK")
    ensures PriceMonthly(reply) == None
  {
  }
}

=== FILE: numbers.dfy ===
/**
  Numbers as pandas holds them: an exact real, or the NaN that marks a missing
  value. Floating-point rounding and infinities are not modelled.
 */
module Numbers {

  datatype Number = Real(value: real) | NaN

  /** Python's truth value of a number: zero is false, anything else (NaN included) is true. */
  predicate Truthy(n: Number): (b: bool)
    ensures b <==> n != Real(0.0)
  {
    n.NaN? || n.value != 0.0
  }

  /** Python `a - b` on floats, NaN absorbing. */
  function Minus(a: Number, b: Number): (r: Number)
    ensures r.Real? <==> a.Real? && b.Real?
    ensures r.Real? ==> r.value + b.value == a.value
  {
    if a.Real? && b.Real? then Real(a.value - b.value) else NaN
  }

  /**
    What `num / den * 100 if den else 0` evaluates to, stated without dividing:
    zero for a false denominator, otherwise the value whose product with the
    denominator is a hundred times the numerator, or NaN when either side is NaN.
   */
  predicate IsPercentage(r: Number, num: Number, den: Number) {
    if !Truthy(den) then r == Real(0.0)
    else if num.Real? && den.Real? then r.Real? && r.value * den.value == 100.0 * num.value
    else r.NaN?
  }

  /** The guarded percentage every ratio of the financial analysis uses. */
  function Percent(num: Number, den: Number): (r: Number)
    ensures IsPercentage(r, num, den)
  {
    if !Truthy(den) then Real(0.0)
    else if num.Real? && den.Real? then Real(num.value / den.value * 100.0)
    else NaN
  }

  /** `IsPercentage` pins the value down: two results that satisfy it agree. */
  lemma PercentageUnique(r1: Number, r2: Number, num: Number, den: Number)
    requires IsPercentage(r1, num, den) && IsPercentage(r2, num, den)
    ensures r1 == r2
  {
    if Truthy(den) && num.Real? && den.Real? {
      assert (r1.value - r2.value) * den.value == 0.0;
    }
  }
}

=== FILE: numeric_cleanup.dfy ===
/**
  Cleanup of the exchange's thousands-separated numeric text:
  `pd.to_numeric(col.str.replace(',', ''), errors='coerce')`. Commas are
  removed, the rest is parsed as a decimal, and whatever does not parse becomes
  NaN, the missing value, never 0.
 */
module NumericCleanup {
  import opened Strings
  import opened Numbers

  /** The characters a parsable cell may hold: digits, a point, a leading sign. */
  predicate NumeralChar(s: string, i: int)
    requires 0 <= i < |s|
  {
    IsDigit(s[i]) || s[i] == '.' || (i == 0 && (s[i] == '+' || s[i] == '-'))
  }

  lemma {:induction false} JoinOfDigits(parts: seq<string>, sep: char)
    requires forall k | 0 <= k < |parts| :: AllDigits(parts[k])
    ensures forall i | 0 <= i < |Join(parts, sep)| :: IsDigit(Join(parts, sep)[i]) || Join(parts, sep)[i] == sep
  {
    if |parts| > 1 {
      JoinOfDigits(parts[1..], sep);
      var tail := Join(parts[1..], sep);
      var j := Join(parts, sep);
      assert j == parts[0] + [sep] + tail;
      forall i | 0 <= i < |j| ensures IsDigit(j[i]) || j[i] == sep {
        if i < |parts[0]| {
          assert j[i] == parts[0][i];
        } else if i > |parts[0]| {
          assert j[i] == tail[i - |parts[0]| - 1];
        }
      }
    }
  }

  lemma DigitsLack(t: string, c: char)
    requires AllDigits(t) && !IsDigit(c)
    ensures c !in t
  {
    forall i | 0 <= i < |t| ensures t[i] != c {
      assert IsDigit(t[i]);
    }
  }

  /** Splits `s` into its sign and the rest, as the parser reads it. */
  function Unsigned(s: string): string
  {
    if |s| > 0 && (s[0] == '-' || s[0] == '+') then s[1..] else s
  }

  /** The value of the digits after a decimal point. */
  function Fraction(fraction: string): real
    requires AllDigits(fraction)
  {
    DigitsValue(fraction) as real / Pow10(|fraction|) as real
  }

  /** The value of unsigned decimal text split at its point. */
  function Decimal(whole: string, fraction: string): real
    requires AllDigits(whole) && AllDigits(fraction)
  {
    DigitsValue(whole) as real + Fraction(fraction)
  }

  /** Unsigned decimal text: digits with at most one point and at least one digit. */
  function ParseUnsigned(body: string): Number
  {
    var parts := Split(body, '.');
    if |parts| == 1 && |parts[0]| > 0 && AllDigits(parts[0]) then Real(Decimal(parts[0], ""))
    else if |parts| == 2 && AllDigits(parts[0]) && AllDigits(parts[1]) && |parts[0]| + |parts[1]| > 0 then
      Real(Decimal(parts[0], parts[1]))
    else NaN
  }

  /**
    `pd.to_numeric(s, errors='coerce')` on one text cell, restricted to an
    optional sign, decimal digits and at most one point with a digit somewhere;
    NaN for everything else.
   */
  function ToNumeric(s: string): (n: Number)
    ensures n.Real? ==> forall i | 0 <= i < |s| :: NumeralChar(s, i)
    ensures n.Real? ==> exists i | 0 <= i < |s| :: IsDigit(s[i])
    ensures n.Real? ==> Occurrences(s, '.') <= 1
  {
    match ParseUnsigned(Unsigned(s))
    case NaN => NaN
    case Real(magnitude) =>
      NumeralShape(s);
      PointCount(s);
      Real(if |s| > 0 && s[0] == '-' then -magnitude else magnitude)
  }

  /** What a successful unsigned parse says about its pieces. */
  lemma ParseUnsignedPieces(body: string)
    requires ParseUnsigned(body).Real?
    ensures 1 <= |Split(body, '.')| <= 2
    ensures forall k | 0 <= k < |Split(body, '.')| :: AllDigits(Split(body, '.')[k])
    ensures |Split(body, '.')[0]| > 0 || (|Split(body, '.')| == 2 && |Split(body, '.')[1]| > 0)
  {
    var parts := Split(body, '.');
    if !(|parts| == 1 && |parts[0]| > 0 && AllDigits(parts[0])) {
      assert |parts| == 2 && AllDigits(parts[0]) && AllDigits(parts[1]) && |parts[0]| + |parts[1]| > 0;
    }
  }

  /** A parsed number has at most one point: the sign is not a point, and the unsigned rest splits into at most two pieces. */
  lemma {:induction false} PointCount(s: string)
    requires ParseUnsigned(Unsigned(s)).Real?
    ensures Occurrences(s, '.') <= 1
  {
    var body := Unsigned(s);
    ParseUnsignedPieces(body);
    assert |Split(body, '.')| == Occurrences(body, '.') + 1;
    if body != s {
      assert body == s[1..] && s[0] != '.';
    }
  }

  lemma NumeralShape(s: string)
    requires ParseUnsigned(Unsigned(s)).Real?
    ensures forall i | 0 <= i < |s| :: NumeralChar(s, i)
    ensures exists i | 0 <= i < |s| :: IsDigit(s[i])
  {
    var body := Unsigned(s);
    var parts := Split(body, '.');
    ParseUnsignedPieces(body);
    var offset := if |s| > 0 && (s[0] == '-' || s[0] == '+') then 1 else 0;
    assert body == s[offset..];
    JoinOfDigits(parts, '.');
    assert Join(parts, '.') == body;
    forall i | 0 <= i < |s| ensures NumeralChar(s, i) {
      if i >= offset {
        assert s[i] == body[i - offset];
      }
    }
    if |parts[0]| > 0 {
      assert body == parts[0] || body == parts[0] + ['.'] + parts[1];
      assert body[0] == parts[0][0];
      assert IsDigit(s[offset]);
    } else {
      assert body == parts[0] + ['.'] + parts[1];
      assert body[|parts[0]| + 1] == parts[1][0];
      assert IsDigit(s[offset + |parts[0]| + 1]);
    }
  }

  /** A plain digit string parses to the number it denotes. */
  lemma ToNumericOfDigits(t: string)
    requires |t| >= 1 && AllDigits(t)
    ensures ToNumeric(t) == Real(DigitsValue(t) as real)
  {
    DigitsLack(t, '.');
    NoSeparatorNoOccurrence(t, '.');
    assert Unsigned(t) == t by { assert IsDigit(t[0]); }
    assert Split(t, '.') == [t];
    assert Pow10(0) == 1;
    assert ParseUnsigned(t) == Real(DigitsValue(t) as real);
  }

  /** Digits, a point and digits parse to the whole part plus the scaled fraction. */
  lemma ToNumericOfDecimal(whole: string, fraction: string)
    requires |whole| >= 1 && AllDigits(whole) && AllDigits(fraction)
    ensures ToNumeric(whole + "." + fraction) == Real(Decimal(whole, fraction))
    ensures ParseUnsigned(whole + "." + fraction) == Real(Decimal(whole, fraction))
  {
    DigitsLack(whole, '.');
    DigitsLack(fraction, '.');
    var s := whole + "." + fraction;
    assert Join([whole, fraction], '.') == s;
    SplitJoin([whole, fraction], '.');
    assert s[0] == whole[0];
    assert Unsigned(s) == s;
    assert ParseUnsigned(s) == Real(Decimal(whole, fraction));
  }

  /** The sign in front of unsigned text: `-` negates the number, `+` keeps it, NaN stays NaN. */
  lemma {:induction false} ToNumericSigned(body: string)
    requires |body| == 0 || (body[0] != '-' && body[0] != '+')
    ensures ToNumeric("-" + body) == match ToNumeric(body) case Real(v) => Real(-v) case NaN => NaN
    ensures ToNumeric("+" + body) == ToNumeric(body)
  {
    assert Unsigned("-" + body) == body;
    assert Unsigned("+" + body) == body;
    assert Unsigned(body) == body;
  }

  /** A signed decimal: `-whole.fraction` is the negated value, `+whole.fraction` the value itself. */
  lemma {:induction false} ToNumericOfSignedDecimal(whole: string, fraction: string)
    requires |whole| >= 1 && AllDigits(whole) && AllDigits(fraction)
    ensures ToNumeric("-" + (whole + "." + fraction)) == Real(-Decimal(whole, fraction))
    ensures ToNumeric("+" + (whole + "." + fraction)) == Real(Decimal(whole, fraction))
  {
    var body := whole + "." + fraction;
    assert body[0] == whole[0];
    assert Unsigned("-" + body) == body && Unsigned("+" + body) == body;
    assert ParseUnsigned(body) == Real(Decimal(whole, fraction)) by {
      ToNumericOfDecimal(whole, fraction);
    }
  }

  /** Text with two points does not parse: `1.2.3` is missing, never 0. */
  lemma ToNumericTwoPointsExample()
    ensures ToNumeric("1.2.3") == NaN
  {
    assert Occurrences("1.2.3", '.') == 2 by {
      assert "1.2.3"[1..] == ".2.3";
      assert ".2.3"[1..] == "2.3";
      assert "2.3"[1..] == ".3";
      assert ".3"[1..] == "3";
      assert "3"[1..] == "";
    }
  }

  /** Three digits of `k`, leading zeros kept: one thousands group. */
  function Group(k: nat): (g: string)
    requires k < 1000
    ensures |g| == 3 && AllDigits(g) && DigitsValue(g) == k
  {
    var q := k / 10;
    var g := [DigitChar(q / 10), DigitChar(q % 10), DigitChar(k % 10)];
    assert g[..2] == [DigitChar(q / 10), DigitChar(q % 10)];
    assert g[..2][..1] == [DigitChar(q / 10)];
    assert g[..2][..1][..0] == [];
    assert DigitsValue(g[..2][..1]) == q / 10;
    assert DigitsValue(g[..2]) == q / 10 * 10 + q % 10 == q;
    assert DigitsValue(g) == q * 10 + k % 10 == k;
    g
  }

  /** A count as the exchange writes it: `str(n)` with a comma between thousands groups. */
  function WithThousands(n: nat): string
  {
    if n < 1000 then NatToString(n) else WithThousands(n / 1000) + "," + Group(n % 1000)
  }

  /** Removing commas from `head,group` keeps the group's digits after the head's. */
  lemma StripGroup(head: string, g: string)
    requires ',' !in g
    ensures RemoveAll(head + "," + g, ',') == RemoveAll(head, ',') + g
  {
    RemoveAllAppend(head + ",", g, ',');
    RemoveAllAppend(head, ",", ',');
    assert RemoveAll(",", ',') == "" by { assert ","[0] == ','; assert ","[1..] == ""; }
    assert RemoveAll(head, ',') + "" == RemoveAll(head, ',');
  }

  /** Removing the commas from a grouped count leaves its digits, and they denote the count. */
  lemma {:induction false} StripThousands(n: nat)
    ensures |RemoveAll(WithThousands(n), ',')| >= 1
    ensures AllDigits(RemoveAll(WithThousands(n), ','))
    ensures DigitsValue(RemoveAll(WithThousands(n), ',')) == n
  {
    if n < 1000 {
      DigitsLack(NatToString(n), ',');
    } else {
      var g := Group(n % 1000);
      StripThousands(n / 1000);
      DigitsLack(g, ',');
      StripGroup(WithThousands(n / 1000), g);
      var r := RemoveAll(WithThousands(n / 1000), ',');
      DigitsValueAppend(r, g);
      assert Pow10(3) == 1000;
      assert DigitsValue(r + g) == (n / 1000) * 1000 + n % 1000;
    }
  }

  /** The whole cleanup on one cell of the exchange's text. */
  function CleanText(s: string): (n: Number)
    ensures ',' !in s ==> n == ToNumeric(s)
  {
    ToNumeric(RemoveAll(s, ','))
  }

  /** A comma anywhere in the text is ignored: only the remaining characters decide the number. */
  lemma CleanTextIgnoresComma(a: string, b: string)
    ensures CleanText(a + "," + b) == CleanText(a + b)
  {
    StrippedComma(a, b);
  }

  lemma StrippedComma(a: string, b: string)
    ensures RemoveAll(a + "," + b, ',') == RemoveAll(a + b, ',')
  {
    var x := a + ",";
    assert a + "," + b == x + b;
    RemoveAllAppend(x, b, ',');
    RemoveAllAppend(a, ",", ',');
    RemoveAllAppend(a, b, ',');
    assert RemoveAll(",", ',') == "" by {
      assert ","[1..] == "";
    }
    assert RemoveAll(x, ',') == RemoveAll(a, ',') + "" == RemoveAll(a, ',');
  }

  /** A grouped count cleans back to the count: the cleanup inverts the exchange's formatting. */
  lemma CleanTextOfCount(n: nat)
    ensures CleanText(WithThousands(n)) == Real(n as real)
  {
    StripThousands(n);
    ToNumericOfDigits(RemoveAll(WithThousands(n), ','));
  }

  /** Commas go only from the part before a digit fraction. */
  lemma StripBeforeFraction(head: string, fraction: string)
    requires AllDigits(fraction)
    ensures RemoveAll(head + "." + fraction, ',') == RemoveAll(head, ',') + "." + fraction
  {
    DigitsLack(fraction, ',');
    var tail := "." + fraction;
    assert ',' !in tail by {
      forall i | 0 <= i < |tail| ensures tail[i] != ',' {
        if i > 0 { assert tail[i] == fraction[i - 1]; }
      }
    }
    assert RemoveAll(tail, ',') == tail;
    RemoveAllAppend(head, tail, ',');
    assert head + "." + fraction == head + tail;
    assert RemoveAll(head, ',') + tail == RemoveAll(head, ',') + "." + fraction;
  }

  /** Text whose commas hide a digit string, then a point and digits, cleans to that decimal. */
  lemma CleanTextOfDecimal(head: string, fraction: string)
    requires |RemoveAll(head, ',')| >= 1 && AllDigits(RemoveAll(head, ','))
    requires AllDigits(fraction)
    ensures CleanText(head + "." + fraction) == Real(Decimal(RemoveAll(head, ','), fraction))
  {
    StripBeforeFraction(head, fraction);
    ToNumericOfDecimal(RemoveAll(head, ','), fraction);
  }

  /** A grouped price with decimals cleans back to the price. */
  lemma CleanTextOfPrice(n: nat, fraction: string)
    requires AllDigits(fraction)
    ensures CleanText(WithThousands(n) + "." + fraction) == Real(n as real + Fraction(fraction))
  {
    StripThousands(n);
    CleanTextOfDecimal(WithThousands(n), fraction);
  }

  /** Text with anything but digits, points and a leading sign is missing, never 0. */
  lemma CleanTextRejects(s: string, i: nat)
    requires i < |s| && s[i] != ',' && !IsDigit(s[i]) && s[i] != '.' && s[i] != '+' && s[i] != '-'
    ensures CleanText(s) == NaN
  {
    var t := RemoveAll(s, ',');
    assert multiset(s)[s[i]] > 0;
    assert s[i] in t by { assert multiset(t)[s[i]] == multiset(s)[s[i]]; }
    var j :| 0 <= j < |t| && t[j] == s[i];
    assert !NumeralChar(t, j);
  }

  /** The worked example: a grouped trading volume. */
  lemma CleanTextGroupedExample()
    ensures CleanText("1,234,567") == Real(1234567.0)
  {
    assert NatToString(1) == "1";
    assert Group(234) == "234";
    assert Group(567) == "567";
    assert WithThousands(1234) == "1,234";
    assert WithThousands(1234567) == "1,234,567";
    CleanTextOfCount(1234567);
  }

  /** The placeholders the exchange prints for no trade are missing, not 0. */
  lemma CleanTextPlaceholderExamples()
    ensures CleanText("N/A") == NaN
    ensures CleanText("--") == NaN
    ensures CleanText("") == NaN
  {
    CleanTextRejects("N/A", 0);
    assert RemoveAll("--", ',') == "--";
    assert !NumeralChar("--", 1);
    assert RemoveAll("", ',') == "";
    assert Split("", '.') == [""];
  }
}

=== FILE: optional.dfy ===
/** A value that may be absent: Python's `None` as a result, or a step that raised. */
module Optional {

  datatype Option<+T> = None | Some(value: T)
}

=== FILE: price_history.dfy ===
/**
  The month loop shared by app.py `fetch_stock_history` and get_data.py
  `get_stock_data`: each month's reply is converted with the strict date lambda
  and five cleaned columns inside a `try`; a month that raises, or whose `stat`
  is not "OK", adds nothing; the months that succeeded are concatenated in
  order, and there is no table at all when none succeeded.
 */
module PriceHistory {
  import opened Optional
  import opened Numbers
  import opened PriceTable
  import Strings

  lemma HistoryColumnsDistinct()
    ensures NoDuplicates(HistoryColumns)
    ensures DateColumn !in HistoryColumns
  {
  }

  /** The reply gives a table with a date column, and every date in it survives the strict lambda. */
  predicate DatesConvert(reply: Reply) {
    match ReplyTable(reply)
    case None => false
    case Some(t) =>
      && DateColumn in t.columns
      && forall i | 0 <= i < |t.rows| :: StrictDateCell(t.rows[i][DateColumn]).Some?
  }

  /** The body of the `try` for one month: its cleaned table, or `None` when it was skipped or raised. */
  function HistoryMonth(reply: Reply): (r: Option<Table>)
    ensures r.Some? <==> DatesConvert(reply)
    ensures r.Some? ==> r.value.columns == reply.fields.value && |r.value.rows| == |reply.data.value|
  {
    match ReplyTable(reply)
    case None => None
    case Some(t) =>
      if DateColumn !in t.columns then None else CleanHistory(t)
  }

  /**
    The conversions of one month's table: the strict lambda down the date
    column, which fails the month if one cell fails, then the five listed columns
    cleaned; every other cell is kept.
   */
  function CleanHistory(t: Table): (r: Option<Table>)
    requires DateColumn in t.columns
    ensures r.Some? <==> forall i | 0 <= i < |t.rows| :: StrictDateCell(t.rows[i][DateColumn]).Some?
    ensures r.Some? ==>
      && r.value.columns == t.columns
      && |r.value.rows| == |t.rows|
      && forall i, k | 0 <= i < |t.rows| && k in t.rows[i] ::
        && k in r.value.rows[i]
        && r.value.rows[i][k] == if k == DateColumn then StrictDateCell(t.rows[i][k]).value
                                 else if k in HistoryColumns then CleanCell(t.rows[i][k])
                                 else t.rows[i][k]
  {
    match StrictDates(t)
    case None => None
    case Some(d) =>
      HistoryColumnsDistinct();
      CleanedHistoryCells(t, d);
      Some(CleanColumns(d, HistoryColumns))
  }

  /** A cleaned month, cell by cell: the converted date, the five cleaned columns, every other cell kept. */
  lemma CleanedHistoryCells(t: Table, d: Table)
    requires DateColumn in t.columns
    requires StrictDates(t) == Some(d)
    requires NoDuplicates(HistoryColumns)
    ensures
      var r := CleanColumns(d, HistoryColumns);
      && r.columns == t.columns
      && |r.rows| == |t.rows|
      && forall i, k | 0 <= i < |t.rows| && k in t.rows[i] ::
        && k in r.rows[i]
        && r.rows[i][k] == if k == DateColumn then StrictDateCell(t.rows[i][k]).value
                           else if k in HistoryColumns then CleanCell(t.rows[i][k])
                           else t.rows[i][k]
  {
    HistoryColumnsDistinct();
    var r := CleanColumns(d, HistoryColumns);
    forall i, k | 0 <= i < |t.rows| && k in t.rows[i]
      ensures k in r.rows[i]
      ensures r.rows[i][k] == if k == DateColumn then StrictDateCell(t.rows[i][k]).value
                              else if k in HistoryColumns then CleanCell(t.rows[i][k])
                              else t.rows[i][k]
    {
      assert d.rows[i] == SetDate(t.rows[i], StrictDateCell(t.rows[i][DateColumn]).value);
      assert k in d.rows[i];
      assert r.rows[i][k] == if k in HistoryColumns then CleanCell(d.rows[i][k]) else d.rows[i][k];
    }
  }

  /**
    A month whose table has a date column succeeds exactly when every date cell
    survives the strict lambda; then each date is converted, the five listed
    columns are cleaned, and every other cell is kept.
   */
  lemma HistoryMonthSpec(reply: Reply, t: Table)
    requires ReplyTable(reply) == Some(t) && DateColumn in t.columns
    ensures HistoryMonth(reply) == CleanHistory(t)
    ensures HistoryMonth(reply).Some? <==> forall i | 0 <= i < |t.rows| :: StrictDateCell(t.rows[i][DateColumn]).Some?
    ensures HistoryMonth(reply).Some? ==>
      var r := HistoryMonth(reply).value;
      && r.columns == t.columns
      && |r.rows| == |t.rows|
      && forall i, k | 0 <= i < |t.rows| && k in t.rows[i] ::
        && k in r.rows[i]
        && r.rows[i][k] == if k == DateColumn then StrictDateCell(t.rows[i][k]).value
                           else if k in HistoryColumns then CleanCell(t.rows[i][k])
                           else t.rows[i][k]
  {
    assert HistoryMonth(reply) == CleanHistory(t);
  }

  /** A month that is not an "OK" reply with a date column adds nothing. */
  lemma HistoryMonthNeedsDates(reply: Reply)
    requires ReplyTable(reply).None? || DateColumn !in ReplyTable(reply).value.columns
    ensures HistoryMonth(reply).None?
  {
  }

  /** A cell holding `Y/M/D` with slash-free fields and an integer era year Y. */
  ghost predicate IsEraDate(c: Cell) {
    exists year: string, month: string, day: string
      | '/' !in year && '/' !in month && '/' !in day && Strings.ParseInt(year).Some? ::
      c == Text(year + "/" + month + "/" + day)
  }

  /** An "OK" reply with a date column whose every date is an era date is never skipped. */
  lemma HistoryMonthSucceeds(reply: Reply)
    requires ReplyTable(reply).Some? && DateColumn in ReplyTable(reply).value.columns
    requires forall i | 0 <= i < |ReplyTable(reply).value.rows| :: IsEraDate(ReplyTable(reply).value.rows[i][DateColumn])
    ensures HistoryMonth(reply).Some?
  {
    var t := ReplyTable(reply).value;
    forall i | 0 <= i < |t.rows| ensures StrictDateCell(t.rows[i][DateColumn]).Some? {
      var year: string, month: string, day: string :|
        && '/' !in year && '/' !in month && '/' !in day && Strings.ParseInt(year).Some?
        && t.rows[i][DateColumn] == Text(year + "/" + month + "/" + day);
      StrictDateCellOfFields(year, month, day);
    }
    assert DatesConvert(reply);
  }

  /**
    Each cell of a month that succeeds, against the reply's own row: the
    converted date, one of the five cleaned numbers, or the received text.
   */
  lemma HistoryMonthCell(reply: Reply, i: nat, k: string)
    requires DatesConvert(reply)
    requires i < |reply.data.value| && k in reply.fields.value
    ensures
      var row := RowOf(reply.fields.value, reply.data.value[i]);
      && HistoryMonth(reply).Some?
      && var t := HistoryMonth(reply).value;
      && i < |t.rows| && k in row && k in t.rows[i]
      && t.rows[i][k] == if k == DateColumn then StrictDateCell(row[k]).value
                         else if k in HistoryColumns then CleanCell(row[k])
                         else row[k]
  {
    var table := ReplyTable(reply).value;
    assert table.rows[i] == RowOf(table.columns, reply.data.value[i]);
    HistoryMonthSpec(reply, table);
  }

  /** The outcome of every month, in month order. */
  function Months(replies: seq<Reply>): (os: seq<Option<Table>>)
    ensures |os| == |replies|
    ensures forall i | 0 <= i < |replies| :: os[i] == HistoryMonth(replies[i])
  {
    seq(|replies|, i requires 0 <= i < |replies| => HistoryMonth(replies[i]))
  }

  lemma MonthsAppend(a: seq<Reply>, b: seq<Reply>)
    ensures Months(a + b) == Months(a) + Months(b)
  {
    var m := Months(a + b);
    forall i | 0 <= i < |a + b| ensures m[i] == (Months(a) + Months(b))[i] {
      if i < |a| {
        assert (a + b)[i] == a[i];
      } else {
        assert (a + b)[i] == b[i - |a|];
      }
    }
  }

  /** The values present among the outcomes, in order. */
  function Present<T>(os: seq<Option<T>>): seq<T>
  {
    if |os| == 0 then []
    else Present(os[..|os| - 1]) + (match os[|os| - 1] case Some(t) => [t] case None => [])
  }

  lemma {:induction false} PresentAppend<T>(a: seq<Option<T>>, b: seq<Option<T>>)
    ensures Present(a + b) == Present(a) + Present(b)
  {
    if |b| == 0 {
      assert a + b == a;
    } else {
      var n := |b| - 1;
      assert (a + b)[..|a + b| - 1] == a + b[..n];
      assert (a + b)[|a + b| - 1] == b[n];
      PresentAppend(a, b[..n]);
    }
  }

  lemma {:induction false} PresentEmpty<T>(os: seq<Option<T>>)
    ensures |Present(os)| == 0 <==> forall i | 0 <= i < |os| :: os[i].None?
  {
    if |os| > 0 {
      var n := |os| - 1;
      PresentEmpty(os[..n]);
      assert forall i | 0 <= i < n :: os[..n][i] == os[i];
    }
  }

  /** Every value present is one of the outcomes. */
  lemma {:induction false} PresentFrom<T>(os: seq<Option<T>>)
    ensures forall j | 0 <= j < |Present(os)| :: Some(Present(os)[j]) in os
  {
    if |os| > 0 {
      var n := |os| - 1;
      PresentFrom(os[..n]);
      assert forall o | o in os[..n] :: o in os;
    }
  }

  /** The `all_data` list: the tables of the months that succeeded, in month order. */
  function Succeeded(replies: seq<Reply>): seq<Table>
  {
    Present(Months(replies))
  }

  /** `pd.concat` column union: the columns so far, then the new names in their order of appearance. */
  function AddColumns(cols: seq<string>, more: seq<string>): (r: seq<string>)
    ensures forall c :: c in r <==> c in cols || c in more
    decreases |more|
  {
    if |more| == 0 then cols
    else
      var r := AddColumns(if more[0] in cols then cols else cols + [more[0]], more[1..]);
      assert forall c :: c in more <==> c == more[0] || c in more[1..] by {
        assert more == [more[0]] + more[1..];
      }
      r
  }

  /** The position where `x` first occurs in `s`. */
  function FirstIndex(s: seq<string>, x: string): (i: nat)
    requires x in s
    ensures i < |s| && s[i] == x && x !in s[..i]
  {
    if s[0] == x then 0
    else
      var i := 1 + FirstIndex(s[1..], x);
      assert s[..i] == [s[0]] + s[1..][..i - 1];
      i
  }

  /** The union keeps the columns so far as its prefix and appends only names of `more` not among them. */
  lemma {:induction false} AddColumnsExtends(cols: seq<string>, more: seq<string>)
    ensures var r := AddColumns(cols, more);
      && |cols| <= |r| && r[..|cols|] == cols
      && forall i | |cols| <= i < |r| :: r[i] !in cols && r[i] in more
    decreases |more|
  {
    if |more| > 0 {
      var m := more[0];
      var next := if m in cols then cols else cols + [m];
      var r := AddColumns(next, more[1..]);
      AddColumnsExtends(next, more[1..]);
      assert r[..|cols|] == r[..|next|][..|cols|];
      forall i | |cols| <= i < |r| ensures r[i] !in cols && r[i] in more {
        if i < |next| {
          assert r[i] == r[..|next|][i];
        }
        assert more == [m] + more[1..];
      }
    }
  }

  /**
    The order of the column union in general: after the columns so far, each
    name of `more` not among them comes once, in the order of its first
    appearance in `more`.
   */
  lemma {:induction false} AddColumnsOrder(cols: seq<string>, more: seq<string>)
    ensures var r := AddColumns(cols, more);
      forall i, j | |cols| <= i < j < |r| :: r[i] in more && r[j] in more && FirstIndex(more, r[i]) < FirstIndex(more, r[j])
    decreases |more|
  {
    AddColumnsExtends(cols, more);
    if |more| > 0 {
      var m := more[0];
      var tail := more[1..];
      var next := if m in cols then cols else cols + [m];
      var r := AddColumns(next, tail);
      AddColumnsOrder(next, tail);
      AddColumnsExtends(next, tail);
      assert r[..|next|] == next;
      forall i, j | |cols| <= i < j < |r| ensures FirstIndex(more, r[i]) < FirstIndex(more, r[j]) {
        assert r[j] !in next && r[j] in tail;
        assert r[j] != m;
        TailFirstIndex(more, r[j]);
        if i >= |next| {
          assert r[i] != m;
          TailFirstIndex(more, r[i]);
        } else {
          assert r[i] == r[..|next|][i];
        }
      }
    }
  }

  lemma TailFirstIndex(s: seq<string>, x: string)
    requires x in s && x != s[0]
    ensures x in s[1..] && FirstIndex(s, x) == 1 + FirstIndex(s[1..], x)
  {
    assert s == [s[0]] + s[1..];
  }

  /** A header without repeats stays without repeats once the next month's columns are added. */
  lemma {:induction false} AddColumnsNoDuplicates(cols: seq<string>, more: seq<string>)
    requires NoDuplicates(cols)
    ensures NoDuplicates(AddColumns(cols, more))
    decreases |more|
  {
    if |more| > 0 {
      var m := more[0];
      var next := if m in cols then cols else cols + [m];
      if m !in cols {
        forall a, b | 0 <= a < b < |next| ensures next[a] != next[b] {
          if b == |cols| {
            assert next[a] == cols[a];
          }
        }
      }
      AddColumnsNoDuplicates(next, more[1..]);
    }
  }

  lemma {:induction false} AddColumnsDisjoint(cols: seq<string>, more: seq<string>)
    requires NoDuplicates(cols + more)
    ensures AddColumns(cols, more) == cols + more
    decreases |more|
  {
    if |more| > 0 {
      assert (cols + more)[|cols|] == more[0];
      assert more[0] !in cols by {
        forall j | 0 <= j < |cols| ensures cols[j] != more[0] {
          assert (cols + more)[j] == cols[j];
        }
      }
      assert (cols + [more[0]]) + more[1..] == cols + more;
      AddColumnsDisjoint(cols + [more[0]], more[1..]);
    }
  }

  lemma {:induction false} AddColumnsCovered(cols: seq<string>, more: seq<string>)
    requires forall c | c in more :: c in cols
    ensures AddColumns(cols, more) == cols
    decreases |more|
  {
    if |more| > 0 {
      assert more[0] in more;
      assert forall c | c in more[1..] :: c in more;
      AddColumnsCovered(cols, more[1..]);
    }
  }

  /** A row under the union of columns: NaN in the columns its month did not have. */
  function Fill(r: Row, cols: seq<string>): (r': Row)
    ensures r'.Keys == set c | c in cols
  {
    map c | c in cols :: if c in r then r[c] else Value(NaN)
  }

  function FillRows(rows: seq<Row>, cols: seq<string>): (r: seq<Row>)
    ensures |r| == |rows|
    ensures forall i | 0 <= i < |rows| :: r[i] == Fill(rows[i], cols)
  {
    seq(|rows|, i requires 0 <= i < |rows| => Fill(rows[i], cols))
  }

  /** Every row of the months, in order. */
  function AllRows(tables: seq<Table>): seq<Row>
  {
    if |tables| == 0 then [] else AllRows(tables[..|tables| - 1]) + tables[|tables| - 1].rows
  }

  /** Every month's header, one after another, repeats included. */
  function Headers(tables: seq<Table>): (h: seq<string>)
    ensures forall c :: c in h <==> InSomeHeader(tables, c)
  {
    if |tables| == 0 then []
    else
      var n := |tables| - 1;
      var h := Headers(tables[..n]) + tables[n].columns;
      assert forall j | 0 <= j < n :: tables[..n][j] == tables[j];
      h
  }

  /** `c` heads a column of at least one of the months. */
  predicate InSomeHeader(tables: seq<Table>, c: string)
  {
    exists j | 0 <= j < |tables| :: c in tables[j].columns
  }

  /** Every name of `cols` occurs in `h`, and `cols` lists them in the order of their first occurrence there. */
  predicate FirstAppearanceOrder(cols: seq<string>, h: seq<string>)
  {
    forall i, j | 0 <= i < j < |cols| :: cols[i] in h && cols[j] in h && FirstIndex(h, cols[i]) < FirstIndex(h, cols[j])
  }

  /** Adding two headers one after the other is adding their concatenation. */
  lemma {:induction false} AddColumnsAppend(cols: seq<string>, a: seq<string>, b: seq<string>)
    ensures AddColumns(cols, a + b) == AddColumns(AddColumns(cols, a), b)
    decreases |a|
  {
    if |a| == 0 {
      assert a + b == b;
    } else {
      var next := if a[0] in cols then cols else cols + [a[0]];
      assert (a + b)[0] == a[0] && (a + b)[1..] == a[1..] + b;
      AddColumnsAppend(next, a[1..], b);
    }
  }

  /**
    The union `pd.concat` forms from a run of headers: each name once, in
    the order of its first appearance.
   */
  lemma UnionOfHeaders(h: seq<string>)
    ensures var r := AddColumns([], h);
      && (forall c :: c in r <==> c in h)
      && NoDuplicates(r)
      && FirstAppearanceOrder(r, h)
  {
    AddColumnsNoDuplicates([], h);
    AddColumnsOrder([], h);
  }

  /** One step of `Concat`'s header: the union grows by the newest month's columns. */
  lemma ConcatColumnsStep(tables: seq<Table>, init: seq<string>, cols: seq<string>)
    requires |tables| >= 1
    requires init == AddColumns([], Headers(tables[..|tables| - 1]))
    requires cols == AddColumns(init, tables[|tables| - 1].columns)
    ensures cols == AddColumns([], Headers(tables))
    ensures forall c :: c in cols <==> InSomeHeader(tables, c)
    ensures NoDuplicates(cols)
    ensures FirstAppearanceOrder(cols, Headers(tables))
  {
    var n := |tables| - 1;
    AddColumnsAppend([], Headers(tables[..n]), tables[n].columns);
    UnionOfHeaders(Headers(tables));
  }

  /**
    `pd.concat(all_data, ignore_index=True)`: every month's rows in month
    order, each under the union of the columns with NaN where its own month
    lacked the column.
   */
  function Concat(tables: seq<Table>): (t: Table)
    ensures forall i | 0 <= i < |AllRows(tables)| :: AllRows(tables)[i].Keys <= set c | c in t.columns
    ensures t.rows == FillRows(AllRows(tables), t.columns)
    ensures t.columns == AddColumns([], Headers(tables))
    ensures forall c :: c in t.columns <==> InSomeHeader(tables, c)
    ensures NoDuplicates(t.columns)
    ensures FirstAppearanceOrder(t.columns, Headers(tables))
  {
    if |tables| == 0 then Frame([], [])
    else
      var n := |tables| - 1;
      var init := Concat(tables[..n]);
      var last := tables[n];
      var cols := AddColumns(init.columns, last.columns);
      ConcatRowsStep(tables, init, cols);
      ConcatColumnsStep(tables, init.columns, cols);
      Frame(cols, FillRows(init.rows, cols) + FillRows(last.rows, cols))
  }

  /** One step of `Concat`'s rows: the newest month's rows follow, all filled to the grown header. */
  lemma ConcatRowsStep(tables: seq<Table>, init: Table, cols: seq<string>)
    requires |tables| >= 1
    requires var before := AllRows(tables[..|tables| - 1]);
      && init.rows == FillRows(before, init.columns)
      && forall i | 0 <= i < |before| :: before[i].Keys <= set c | c in init.columns
    requires cols == AddColumns(init.columns, tables[|tables| - 1].columns)
    ensures var rows := FillRows(init.rows, cols) + FillRows(tables[|tables| - 1].rows, cols);
      && rows == FillRows(AllRows(tables), cols)
      && WellFormed(Frame(cols, rows))
      && forall i | 0 <= i < |AllRows(tables)| :: AllRows(tables)[i].Keys <= set c | c in cols
  {
    var n := |tables| - 1;
    var last := tables[n];
    var before := AllRows(tables[..n]);
    FillRowsTwice(before, init.columns, cols);
    FillRowsAppend(before, last.rows, cols);
    assert AllRows(tables) == before + last.rows;
    RowsWithinUnion(before, last.rows, init.columns, last.columns, cols);
  }

  /** Rows keyed within two headers are keyed within their union. */
  lemma RowsWithinUnion(x: seq<Row>, y: seq<Row>, a: seq<string>, b: seq<string>, cols: seq<string>)
    requires forall i | 0 <= i < |x| :: x[i].Keys <= set c | c in a
    requires forall i | 0 <= i < |y| :: y[i].Keys == set c | c in b
    requires forall c :: c in cols <==> c in a || c in b
    ensures forall i | 0 <= i < |x + y| :: (x + y)[i].Keys <= set c | c in cols
  {
    forall i | 0 <= i < |x + y| ensures (x + y)[i].Keys <= set c | c in cols {
      if i >= |x| {
        assert (x + y)[i] == y[i - |x|];
      } else {
        assert (x + y)[i] == x[i];
      }
    }
  }

  /** Filling a row to some columns and then to more is filling it to the more. */
  lemma FillTwice(r: Row, a: seq<string>, b: seq<string>)
    requires r.Keys <= set c | c in a
    requires forall c | c in a :: c in b
    ensures Fill(Fill(r, a), b) == Fill(r, b)
  {
  }

  lemma FillRowsAppend(x: seq<Row>, y: seq<Row>, cols: seq<string>)
    ensures FillRows(x, cols) + FillRows(y, cols) == FillRows(x + y, cols)
  {
    var all := x + y;
    forall i | 0 <= i < |all| ensures (FillRows(x, cols) + FillRows(y, cols))[i] == Fill(all[i], cols) {
      if i >= |x| {
        assert all[i] == y[i - |x|];
      }
    }
  }

  lemma FillRowsTwice(rows: seq<Row>, a: seq<string>, b: seq<string>)
    requires forall i | 0 <= i < |rows| :: rows[i].Keys <= set c | c in a
    requires forall c | c in a :: c in b
    ensures FillRows(FillRows(rows, a), b) == FillRows(rows, b)
  {
    forall i | 0 <= i < |rows| ensures Fill(FillRows(rows, a)[i], b) == Fill(rows[i], b) {
      FillTwice(rows[i], a, b);
    }
  }

  /** `fetch_stock_history` / `get_stock_data` after their requests: the concatenated months, or `None` when none succeeded. */
  function History(replies: seq<Reply>): (r: Option<Table>)
    ensures r.None? <==> forall i | 0 <= i < |replies| :: HistoryMonth(replies[i]).None?
    ensures r.Some? ==> r.value.rows == FillRows(AllRows(Succeeded(replies)), r.value.columns)
    ensures r.Some? ==> forall c :: c in r.value.columns <==> InSomeHeader(Succeeded(replies), c)
    ensures r.Some? ==> NoDuplicates(r.value.columns)
    ensures r.Some? ==> FirstAppearanceOrder(r.value.columns, Headers(Succeeded(replies)))
  {
    var ok := Succeeded(replies);
    PresentEmpty(Months(replies));
    if |ok| == 0 then None else Some(Concat(ok))
  }

  /** A missing outcome contributes nothing. */
  lemma PresentSkipsNone<T>(b: seq<Option<T>>, a: seq<Option<T>>)
    ensures Present(b + [None] + a) == Present(b + a)
  {
    var none: seq<Option<T>> := [None];
    assert Present(none) == [] by {
      assert none[..0] == [];
    }
    PresentAppend(b + none, a);
    PresentAppend(b, none);
    PresentAppend(b, a);
  }

  /** A month that is skipped or raises changes nothing: the result is as if it had not been asked for. */
  lemma HistorySkipsFailedMonth(before: seq<Reply>, month: Reply, after: seq<Reply>)
    requires HistoryMonth(month).None?
    ensures History(before + [month] + after) == History(before + after)
  {
    MonthsAppend(before + [month], after);
    MonthsAppend(before, [month]);
    MonthsAppend(before, after);
    assert Months([month]) == [None];
    PresentSkipsNone(Months(before), Months(after));
    assert Succeeded(before + [month] + after) == Succeeded(before + after);
  }

  /** A row already holding exactly the given columns is left alone by the fill. */
  lemma FillKeeps(r: Row, cols: seq<string>)
    requires r.Keys == set c | c in cols
    ensures Fill(r, cols) == r
  {
  }

  /** When every successful month has the same header, the concatenation is those months' rows, in order, under that header. */
  lemma {:induction false} ConcatSharedHeader(tables: seq<Table>, cols: seq<string>)
    requires |tables| >= 1 && NoDuplicates(cols)
    requires forall j | 0 <= j < |tables| :: tables[j].columns == cols
    ensures Concat(tables) == Frame(cols, AllRows(tables))
  {
    var n := |tables| - 1;
    var init := Concat(tables[..n]);
    var last := tables[n];
    if n == 0 {
      assert [] + cols == cols;
      AddColumnsDisjoint([], cols);
    } else {
      ConcatSharedHeader(tables[..n], cols);
      AddColumnsCovered(cols, cols);
    }
    assert FillRows(init.rows, cols) == init.rows by {
      forall i | 0 <= i < |init.rows| ensures Fill(init.rows[i], cols) == init.rows[i] {
        FillKeeps(init.rows[i], cols);
      }
    }
    assert FillRows(last.rows, cols) == last.rows by {
      forall i | 0 <= i < |last.rows| ensures Fill(last.rows[i], cols) == last.rows[i] {
        FillKeeps(last.rows[i], cols);
      }
    }
  }

  /**
    With one shared header (the exchange's usual reply), the history is the
    successful months' rows concatenated in month order under that header.
   */
  lemma HistorySharedHeader(replies: seq<Reply>, cols: seq<string>)
    requires History(replies).Some? && NoDuplicates(cols)
    requires forall i | 0 <= i < |replies| && HistoryMonth(replies[i]).Some? :: HistoryMonth(replies[i]).value.columns == cols
    ensures History(replies) == Some(Frame(cols, AllRows(Succeeded(replies))))
  {
    SucceededHeaders(replies, cols);
    ConcatSharedHeader(Succeeded(replies), cols);
  }

  lemma SucceededHeaders(replies: seq<Reply>, cols: seq<string>)
    requires forall i | 0 <= i < |replies| && HistoryMonth(replies[i]).Some? :: HistoryMonth(replies[i]).value.columns == cols
    ensures forall j | 0 <= j < |Succeeded(replies)| :: Succeeded(replies)[j].columns == cols
  {
    var os := Months(replies);
    PresentFrom(os);
    forall j | 0 <= j < |Present(os)| ensures Present(os)[j].columns == cols {
      var i :| 0 <= i < |os| && os[i] == Some(Present(os)[j]);
    }
  }
}

=== FILE: price_table.dfy ===
/**
  The exchange's monthly `STOCK_DAY` replies turned into price tables: the
  header and rows of one reply become a table, the era dates of its `日期`
  column are converted, the listed numeric columns are cleaned, and the months
  that succeeded are concatenated.

  core.py `get_stock_price_monthly` handles one month with the lenient date
  conversion and six numeric columns; app.py `fetch_stock_history` and
  get_data.py `get_stock_data` handle several months with the strict date lambda
  and five numeric columns, and drop a month whose conversion raises.
 */
module PriceTable {
  import opened Optional
  import opened Numbers
  import EraDate
  import NumericCleanup
  import Strings

  /** One cell: exchange text, a cleaned number (NaN when missing), or the `None` pandas pads a short row with. */
  datatype Cell = Text(text: string) | Value(number: Number) | Null

  /** One row of a table, by column name. */
  type Row = map<string, Cell>

  datatype Frame = Frame(columns: seq<string>, rows: seq<Row>)

  /** A pandas DataFrame: every row has a cell in every column, and only there. */
  predicate WellFormed(f: Frame) {
    forall i | 0 <= i < |f.rows| :: f.rows[i].Keys == set c | c in f.columns
  }

  type Table = f: Frame | WellFormed(f) witness Frame([], [])

  /**
    The decoded JSON of one `STOCK_DAY` request. `Unreachable` stands for a
    request or decoding that raised; each key of the object may be absent.
   */
  datatype Reply =
    | Unreachable
    | Reply(stat: Option<string>, fields: Option<seq<string>>, data: Option<seq<seq<string>>>)

  const DateColumn: string := "日期"

  /** The numeric columns app.py and get_data.py clean, in their order. */
  const HistoryColumns: seq<string> := ["收盤價", "開盤價", "最高價", "最低價", "成交股數"]

  /** The numeric columns core.py cleans, in its order; it adds the traded value 成交金額. */
  const MonthlyColumns: seq<string> := ["成交股數", "成交金額", "開盤價", "最高價", "最低價", "收盤價"]

  predicate NoDuplicates(names: seq<string>) {
    forall a, b | 0 <= a < b < |names| :: names[a] != names[b]
  }

  function Max(a: nat, b: nat): nat {
    if a < b then b else a
  }

  /** The length of the longest row: the column count pandas infers from the data. */
  function Width(data: seq<seq<string>>): (w: nat)
    ensures forall i | 0 <= i < |data| :: |data[i]| <= w
    ensures |data| > 0 ==> exists i | 0 <= i < |data| :: |data[i]| == w
  {
    if |data| == 0 then 0
    else
      var w := Max(|data[0]|, Width(data[1..]));
      assert forall i | 1 <= i < |data| :: data[i] == data[1..][i - 1];
      w
  }

  /**
    One JSON row under the header: the i-th cell goes to the i-th field, a
    field past the end of the row gets `None`. Where a field name repeats, the
    later cell wins.
   */
  function RowOf(fields: seq<string>, cells: seq<string>): (r: Row)
    ensures r.Keys == set c | c in fields
    ensures forall i | 0 <= i < |fields| && fields[i] !in fields[i + 1..] ::
      r[fields[i]] == if i < |cells| then Text(cells[i]) else Null
  {
    if |fields| == 0 then map[]
    else
      var k := |fields| - 1;
      assert fields == fields[..k] + [fields[k]];
      var init := RowOf(fields[..k], cells);
      RowOfStep(fields[..k], fields[k], cells, init);
      init[fields[k] := if k < |cells| then Text(cells[k]) else Null]
  }

  /** One step of `RowOf`: the last header name takes its own cell over any earlier one. */
  lemma RowOfStep(pre: seq<string>, last: string, cells: seq<string>, init: Row)
    requires init.Keys == set c | c in pre
    requires forall i | 0 <= i < |pre| && pre[i] !in pre[i + 1..] ::
      init[pre[i]] == if i < |cells| then Text(cells[i]) else Null
    ensures var fields := pre + [last];
      var r := init[last := if |pre| < |cells| then Text(cells[|pre|]) else Null];
      && r.Keys == set c | c in fields
      && forall i | 0 <= i < |fields| && fields[i] !in fields[i + 1..] ::
        r[fields[i]] == if i < |cells| then Text(cells[i]) else Null
  {
    var r := init[last := if |pre| < |cells| then Text(cells[|pre|]) else Null];
    KeysAfterUpdate(pre, last, init, r[last]);
    CellsAfterUpdate(pre, last, cells, init);
  }

  /** Adding the last name to a row keyed by the earlier names keys it by all of them. */
  lemma KeysAfterUpdate(pre: seq<string>, last: string, init: Row, cell: Cell)
    requires init.Keys == set c | c in pre
    ensures init[last := cell].Keys == set c | c in pre + [last]
  {
    assert forall c :: c in pre + [last] <==> c in pre || c == last;
  }

  /** Adding the last name's cell keeps the cell of every earlier name it does not repeat. */
  lemma CellsAfterUpdate(pre: seq<string>, last: string, cells: seq<string>, init: Row)
    requires forall i | 0 <= i < |pre| :: pre[i] in init
    requires forall i | 0 <= i < |pre| && pre[i] !in pre[i + 1..] ::
      init[pre[i]] == if i < |cells| then Text(cells[i]) else Null
    ensures var fields := pre + [last];
      var r := init[last := if |pre| < |cells| then Text(cells[|pre|]) else Null];
      forall i | 0 <= i < |fields| && fields[i] !in fields[i + 1..] ::
        fields[i] in r && r[fields[i]] == if i < |cells| then Text(cells[i]) else Null
  {
    var fields := pre + [last];
    var k := |pre|;
    var r := init[last := if k < |cells| then Text(cells[k]) else Null];
    forall i | 0 <= i < |fields| && fields[i] !in fields[i + 1..]
      ensures fields[i] in r && r[fields[i]] == if i < |cells| then Text(cells[i]) else Null
    {
      if i < k {
        var later := fields[i + 1..];
        assert later == pre[i + 1..] + [last];
        assert later[|later| - 1] == last;
        assert fields[i] == pre[i] && pre[i] != last && pre[i] !in pre[i + 1..];
        assert r[pre[i]] == init[pre[i]];
      } else {
        assert fields[i] == last;
      }
    }
  }

  /**
    The rows fit the header when none is longer than it and, if there are any,
    the longest is exactly as long: what `pd.DataFrame` accepts.
   */
  predicate RowsFit(fields: seq<string>, data: seq<seq<string>>) {
    && (forall i | 0 <= i < |data| :: |data[i]| <= |fields|)
    && (|data| > 0 ==> exists i | 0 <= i < |data| :: |data[i]| == |fields|)
  }

  /** In a header without repeats, no name occurs again after its own position. */
  lemma LaterNamesDiffer(fields: seq<string>)
    ensures NoDuplicates(fields) ==> forall j | 0 <= j < |fields| :: fields[j] !in fields[j + 1..]
  {
    if NoDuplicates(fields) {
      forall j | 0 <= j < |fields| ensures fields[j] !in fields[j + 1..] {
        var later := fields[j + 1..];
        assert forall m | 0 <= m < |later| :: later[m] == fields[j + 1 + m];
      }
    }
  }

  /**
    `pd.DataFrame(data, columns=fields)`: rows shorter than the longest are
    padded with `None`; when the longest row and the header differ in length
    pandas raises.
   */
  function TableOf(fields: seq<string>, data: seq<seq<string>>): (t: Option<Table>)
    ensures t.Some? <==> RowsFit(fields, data)
    ensures t.Some? ==> t.value.columns == fields && |t.value.rows| == |data|
    ensures t.Some? ==> forall i | 0 <= i < |data| :: t.value.rows[i] == RowOf(fields, data[i])
    ensures t.Some? && NoDuplicates(fields) ==> forall i, j | 0 <= i < |data| && 0 <= j < |fields| ::
      t.value.rows[i][fields[j]] == if j < |data[i]| then Text(data[i][j]) else Null
  {
    if |data| > 0 && Width(data) != |fields| then None
    else
      var t := Frame(fields, seq(|data|, i requires 0 <= i < |data| => RowOf(fields, data[i])));
      LaterNamesDiffer(fields);
      Some(t)
  }

  /** The table a reply carries, or `None` when the request failed, a key is absent, `stat` is not "OK", or the rows do not fit the header. */
  function ReplyTable(reply: Reply): (t: Option<Table>)
    ensures t.Some? <==>
      && reply.Reply? && reply.stat == Some("OK") && reply.fields.Some? && reply.data.Some?
      && RowsFit(reply.fields.value, reply.data.value)
    ensures t.Some? ==> t.value.columns == reply.fields.value && |t.value.rows| == |reply.data.value|
    ensures t.Some? ==> forall i | 0 <= i < |reply.data.value| ::
      t.value.rows[i] == RowOf(reply.fields.value, reply.data.value[i])
  {
    if reply.Unreachable? || reply.stat != Some("OK") || reply.fields.None? || reply.data.None? then None
    else TableOf(reply.fields.value, reply.data.value)
  }

  /**
    `convert_date` on one cell: text is converted; on a padded `None` the `in`
    test raises inside `convert_date`, which hands the cell back.
   */
  function LenientDateCell(c: Cell): (r: Cell)
    ensures !c.Text? ==> r == c
    ensures c.Text? ==> r.Text? && (r.text == c.text || '/' !in r.text)
    ensures c.Text? ==> r == Text(EraDate.ConvertDate(c.text))
  {
    match c
    case Text(s) => Text(EraDate.ConvertDate(s))
    case _ => c
  }

  /** The strict lambda on one cell; a cell that is not text has no `split` and raises. */
  function StrictDateCell(c: Cell): (r: Option<Cell>)
    ensures !c.Text? ==> r.None?
    ensures c.Text? && Strings.Occurrences(c.text, '/') < 2 ==> r.None?
    ensures r.Some? ==> r.value.Text? && '/' !in r.value.text
  {
    match c
    case Text(s) =>
      (match EraDate.ConvertDateStrict(s)
       case Some(d) => Some(Text(d))
       case None => None)
    case _ => None
  }

  /** On a text cell the column conversion is the strict lambda on its text: it fails exactly when the lambda does, and otherwise holds its result. */
  lemma StrictDateCellOfText(s: string)
    ensures StrictDateCell(Text(s)).Some? <==> EraDate.ConvertDateStrict(s).Some?
    ensures StrictDateCell(Text(s)).Some? ==> StrictDateCell(Text(s)).value == Text(EraDate.ConvertDateStrict(s).value)
  {
  }

  /**
    A `Y/M/D` date cell: `convert_date` gives the shifted year with month and
    day verbatim when Y is an integer, and hands the text back otherwise.
   */
  lemma LenientDateCellOfFields(year: string, month: string, day: string)
    requires '/' !in year && '/' !in month && '/' !in day
    ensures LenientDateCell(Text(year + "/" + month + "/" + day)) ==
      match Strings.ParseInt(year)
      case Some(y) => Text(EraDate.IsoText(y, month, day))
      case None => Text(year + "/" + month + "/" + day)
  {
    EraDate.ConvertDateOfFields(year, month, day);
  }

  /** A `Y/M/D` date cell passes the strict lambda exactly when Y is an integer, and then converts. */
  lemma StrictDateCellOfFields(year: string, month: string, day: string)
    requires '/' !in year && '/' !in month && '/' !in day
    ensures StrictDateCell(Text(year + "/" + month + "/" + day)) ==
      match Strings.ParseInt(year)
      case Some(y) => Some(Text(EraDate.IsoText(y, month, day)))
      case None => None
  {
    var s := year + "/" + month + "/" + day;
    assert Strings.Join([year, month, day], '/') == s by {
      assert Strings.Join([year, month, day][1..], '/') == month + "/" + day;
    }
    EraDate.ConvertDateStrictOfFields([year, month, day]);
  }

  /** A thousands-grouped count in a cell cleans to that count. */
  lemma CleanCellOfCount(n: nat)
    ensures CleanCell(Text(NumericCleanup.WithThousands(n))) == Value(Real(n as real))
  {
    NumericCleanup.CleanTextOfCount(n);
  }

  function SetDate(r: Row, c: Cell): (r': Row)
    requires DateColumn in r
    ensures r'.Keys == r.Keys
  {
    r[DateColumn := c]
  }

  /** `df['日期'] = df['日期'].apply(convert_date)`: the date of every row is converted, every other cell kept. */
  function LenientDates(t: Table): (r: Table)
    requires DateColumn in t.columns
    ensures r.columns == t.columns && |r.rows| == |t.rows|
    ensures forall i | 0 <= i < |t.rows| :: r.rows[i].Keys == t.rows[i].Keys
    ensures forall i, k | 0 <= i < |t.rows| && k in t.rows[i] ::
      r.rows[i][k] == if k == DateColumn then LenientDateCell(t.rows[i][k]) else t.rows[i][k]
  {
    Frame(t.columns, seq(|t.rows|, i requires 0 <= i < |t.rows| => SetDate(t.rows[i], LenientDateCell(t.rows[i][DateColumn]))))
  }

  /** Converting a cell twice converts it once. */
  lemma LenientDateCellIdempotent(c: Cell)
    ensures LenientDateCell(LenientDateCell(c)) == LenientDateCell(c)
  {
    if c.Text? {
      EraDate.ConvertDateIdempotent(c.text);
    }
  }

  /** Applying `convert_date` to a date column that was already converted changes nothing. */
  lemma LenientDatesIdempotent(t: Table)
    requires DateColumn in t.columns
    ensures LenientDates(LenientDates(t)) == LenientDates(t)
  {
    var once := LenientDates(t);
    var twice := LenientDates(once);
    forall i | 0 <= i < |t.rows| ensures twice.rows[i] == once.rows[i] {
      LenientDateCellIdempotent(t.rows[i][DateColumn]);
      assert forall k | k in once.rows[i] :: twice.rows[i][k] == once.rows[i][k];
    }
  }

  /** The strict lambda applied down the rows: one cell that raises fails the whole column. */
  function StrictDateRows(rows: seq<Row>): (r: Option<seq<Row>>)
    requires forall i | 0 <= i < |rows| :: DateColumn in rows[i]
    ensures r.Some? <==> forall i | 0 <= i < |rows| :: StrictDateCell(rows[i][DateColumn]).Some?
    ensures r.Some? ==> |r.value| == |rows|
    ensures r.Some? ==> forall i | 0 <= i < |rows| ::
      r.value[i] == SetDate(rows[i], StrictDateCell(rows[i][DateColumn]).value)
  {
    if |rows| == 0 then Some([])
    else
      match StrictDateCell(rows[0][DateColumn])
      case None => None
      case Some(d) =>
        match StrictDateRows(rows[1..])
        case None => None
        case Some(rest) => Some([SetDate(rows[0], d)] + rest)
  }

  /** `df['日期'] = df['日期'].apply(lambda x: ...)`, `None` where the lambda raises. */
  function StrictDates(t: Table): (r: Option<Table>)
    requires DateColumn in t.columns
    ensures r.Some? <==> forall i | 0 <= i < |t.rows| :: StrictDateCell(t.rows[i][DateColumn]).Some?
    ensures r.Some? ==> r.value.columns == t.columns && |r.value.rows| == |t.rows|
    ensures r.Some? ==> forall i | 0 <= i < |t.rows| ::
      r.value.rows[i] == SetDate(t.rows[i], StrictDateCell(t.rows[i][DateColumn]).value)
  {
    match StrictDateRows(t.rows)
    case None => None
    case Some(rows) => Some(Frame(t.columns, rows))
  }

  /** `pd.to_numeric(cell.str.replace(',', ''), errors='coerce')`: `.str` yields NaN for a cell that is not text. */
  function CleanCell(c: Cell): (r: Cell)
    ensures r.Value?
    ensures !c.Text? ==> r == Value(NaN)
    ensures c.Text? && ',' !in c.text ==> r == Value(NumericCleanup.ToNumeric(c.text))
    ensures c.Text? ==> r == Value(NumericCleanup.CleanText(c.text))
  {
    match c
    case Text(s) => Value(NumericCleanup.CleanText(s))
    case _ => Value(NaN)
  }

  function CleanRow(r: Row, col: string): (r': Row)
    requires col in r
    ensures r'.Keys == r.Keys
  {
    r[col := CleanCell(r[col])]
  }

  /** One pass of the cleanup loop: `if col in df.columns: df[col] = ...`. */
  function CleanColumn(t: Table, col: string): (r: Table)
    ensures r.columns == t.columns && |r.rows| == |t.rows|
    ensures forall i | 0 <= i < |t.rows| :: r.rows[i].Keys == t.rows[i].Keys
    ensures forall i, k | 0 <= i < |t.rows| && k in t.rows[i] ::
      r.rows[i][k] == if k == col then CleanCell(t.rows[i][k]) else t.rows[i][k]
  {
    if col !in t.columns then t
    else Frame(t.columns, seq(|t.rows|, i requires 0 <= i < |t.rows| => CleanRow(t.rows[i], col)))
  }

  /**
    The cleanup loop over a list of column names: each listed column that is
    present is cleaned, every other column is left as it was.
   */
  function CleanColumns(t: Table, cols: seq<string>): (r: Table)
    requires NoDuplicates(cols)
    decreases |cols|
    ensures r.columns == t.columns && |r.rows| == |t.rows|
    ensures forall i | 0 <= i < |t.rows| :: r.rows[i].Keys == t.rows[i].Keys
    ensures forall i, k | 0 <= i < |t.rows| && k in t.rows[i] ::
      r.rows[i][k] == if k in cols then CleanCell(t.rows[i][k]) else t.rows[i][k]
  {
    if |cols| == 0 then t
    else
      var once := CleanColumn(t, cols[0]);
      assert NoDuplicates(cols[1..]);
      assert forall k | k in cols[1..] :: k != cols[0];
      var r := CleanColumns(once, cols[1..]);
      assert forall i, k | 0 <= i < |t.rows| && k in t.rows[i] ::
        r.rows[i][k] == if k in cols then CleanCell(t.rows[i][k]) else t.rows[i][k]
      by {
        forall i, k | 0 <= i < |t.rows| && k in t.rows[i]
          ensures r.rows[i][k] == if k in cols then CleanCell(t.rows[i][k]) else t.rows[i][k]
        {
          assert k in once.rows[i];
          assert once.rows[i][k] == if k == cols[0] then CleanCell(t.rows[i][k]) else t.rows[i][k];
          assert r.rows[i][k] == if k in cols[1..] then CleanCell(once.rows[i][k]) else once.rows[i][k];
          assert k == cols[0] ==> k !in cols[1..];
          assert k in cols <==> k == cols[0] || k in cols[1..] by {
            assert cols == [cols[0]] + cols[1..];
          }
        }
      }
      r
  }
}

=== FILE: strings.dfy ===
/**
  Text helpers shared by the normalisers: Python's `str.split` with an explicit
  separator and its inverse `join`, `str.replace(c, '')`, decimal digit strings,
  `str(int)`, a restricted `int(str)`, and Python's ordering of `str` values.
 */
module Strings {
  import opened Optional

  predicate IsDigit(c: char) {
    '0' <= c <= '9'
  }

  predicate AllDigits(s: string) {
    forall i | 0 <= i < |s| :: IsDigit(s[i])
  }

  function DigitValue(c: char): nat
    requires IsDigit(c)
  {
    (c as int) - ('0' as int)
  }

  function DigitChar(d: nat): (c: char)
    requires d < 10
    ensures IsDigit(c) && DigitValue(c) == d
  {
    (('0' as int) + d) as char
  }

  function Pow10(k: nat): (p: nat)
    ensures p >= 1
  {
    if k == 0 then 1 else 10 * Pow10(k - 1)
  }

  /** The number a string of decimal digits denotes, leading zeros allowed. */
  function DigitsValue(s: string): nat
    requires AllDigits(s)
  {
    if |s| == 0 then 0 else DigitsValue(s[..|s| - 1]) * 10 + DigitValue(s[|s| - 1])
  }

  /** Python's `str(n)` for a non-negative integer. */
  function NatToString(n: nat): (s: string)
    ensures |s| >= 1 && AllDigits(s)
    ensures DigitsValue(s) == n
    ensures s[0] == '0' <==> n == 0
    ensures |s| == 1 || s[0] != '0'
  {
    if n < 10 then [DigitChar(n)]
    else
      var s := NatToString(n / 10) + [DigitChar(n % 10)];
      assert s[..|s| - 1] == NatToString(n / 10);
      s
  }

  /** Python's `str(n)` for any integer. */
  function IntToString(n: int): (s: string)
    ensures |s| >= 1
    ensures forall i | 0 <= i < |s| :: IsDigit(s[i]) || (i == 0 && s[i] == '-')
    ensures n >= 0 ==> AllDigits(s) && DigitsValue(s) == n
    ensures n < 0 ==> s[0] == '-' && |s| >= 2 && AllDigits(s[1..]) && DigitsValue(s[1..]) == -n
    ensures n >= 0 ==> |s| == 1 || s[0] != '0'
    ensures n < 0 ==> s[1] != '0'
  {
    if n < 0 then "-" + NatToString(-n) else NatToString(n)
  }

  /**
    Python's `int(s)` on text, restricted to an optional `+` or `-` followed by
    one or more ASCII digits; `None` where `int` raises.
   */
  function ParseInt(s: string): (r: Option<int>)
    ensures r.Some? ==> |s| >= 1
    ensures r.Some? ==> forall i | 0 <= i < |s| :: IsDigit(s[i]) || (i == 0 && (s[i] == '+' || s[i] == '-'))
    ensures r.Some? ==> exists i | 0 <= i < |s| :: IsDigit(s[i])
    ensures (|s| >= 1 && AllDigits(s)) ==> r == Some(DigitsValue(s))
    ensures (|s| >= 2 && s[0] == '-' && AllDigits(s[1..])) ==> r == Some(-(DigitsValue(s[1..]) as int))
    ensures (|s| >= 2 && s[0] == '+' && AllDigits(s[1..])) ==> r == Some(DigitsValue(s[1..]))
  {
    assert |s| >= 2 && AllDigits(s[1..]) ==> IsDigit(s[1..][0]);
    if |s| >= 2 && s[0] == '-' && AllDigits(s[1..]) then Some(-(DigitsValue(s[1..]) as int))
    else if |s| >= 2 && s[0] == '+' && AllDigits(s[1..]) then Some(DigitsValue(s[1..]))
    else if |s| >= 1 && AllDigits(s) then Some(DigitsValue(s))
    else None
  }

  /** `int(str(n)) == n`: the year field of a formatted date reads back as its year. */
  lemma ParseIntToString(n: int)
    ensures ParseInt(IntToString(n)) == Some(n)
  {
    var s := IntToString(n);
    if n < 0 {
      assert s[1..] == NatToString(-n);
    } else {
      assert IsDigit(s[0]);
    }
  }

  /** Leading zeros do not change what `int()` reads: `int("0113") == int("113")`. */
  lemma ParseIntLeadingZero(s: string)
    requires |s| >= 1 && AllDigits(s)
    ensures ParseInt("0" + s) == ParseInt(s)
  {
    DigitsValueAppend("0", s);
    assert DigitsValue("0") == 0 by {
      assert "0"[..0] == "";
    }
  }

  /** Number of occurrences of `c` in `s`. */
  function Occurrences(s: string, c: char): nat
  {
    if |s| == 0 then 0 else (if s[0] == c then 1 else 0) + Occurrences(s[1..], c)
  }

  /** Python's `sep.join(parts)`. */
  function Join(parts: seq<string>, sep: char): string
  {
    if |parts| == 0 then ""
    else if |parts| == 1 then parts[0]
    else parts[0] + [sep] + Join(parts[1..], sep)
  }

  /**
    Python's `s.split(sep)`: the maximal separator-free pieces between
    occurrences of `sep`, empty pieces included.
   */
  function Split(s: string, sep: char): (parts: seq<string>)
    ensures |parts| == Occurrences(s, sep) + 1
    ensures forall i | 0 <= i < |parts| :: sep !in parts[i]
    ensures Join(parts, sep) == s
  {
    if |s| == 0 then [""]
    else
      var rest := Split(s[1..], sep);
      if s[0] == sep then
        assert ([""] + rest)[1..] == rest;
        [""] + rest
      else
        var parts := [[s[0]] + rest[0]] + rest[1..];
        assert parts[1..] == rest[1..];
        assert |rest| > 1 ==> Join(rest, sep) == rest[0] + [sep] + Join(rest[1..], sep);
        assert s == [s[0]] + s[1..];
        parts
  }

  lemma {:induction false} NoSeparatorNoOccurrence(s: string, sep: char)
    requires sep !in s
    ensures Occurrences(s, sep) == 0
  {
    if |s| > 0 {
      assert sep !in s[1..];
      NoSeparatorNoOccurrence(s[1..], sep);
    }
  }

  /** Splitting text that starts with a separator-free piece `a`. */
  lemma {:induction false} SplitAfterPiece(a: string, t: string, sep: char)
    requires sep !in a
    ensures Split(a + t, sep) == [a + Split(t, sep)[0]] + Split(t, sep)[1..]
  {
    if |a| > 0 {
      assert (a + t)[1..] == a[1..] + t;
      assert sep !in a[1..];
      SplitAfterPiece(a[1..], t, sep);
      assert [a[0]] + (a[1..] + Split(t, sep)[0]) == a + Split(t, sep)[0];
    } else {
      assert a + t == t;
      assert a + Split(t, sep)[0] == Split(t, sep)[0];
      assert Split(t, sep) == [Split(t, sep)[0]] + Split(t, sep)[1..];
    }
  }

  /** `split` undoes `join` when no piece holds the separator. */
  lemma {:induction false} SplitJoin(parts: seq<string>, sep: char)
    requires |parts| >= 1
    requires forall i | 0 <= i < |parts| :: sep !in parts[i]
    ensures Split(Join(parts, sep), sep) == parts
  {
    if |parts| == 1 {
      SplitAfterPiece(parts[0], "", sep);
      assert parts[0] + "" == parts[0];
    } else {
      var tail := Join(parts[1..], sep);
      SplitJoin(parts[1..], sep);
      assert Split([sep] + tail, sep) == [""] + Split(tail, sep) by {
        assert ([sep] + tail)[1..] == tail;
      }
      assert Join(parts, sep) == parts[0] + ([sep] + tail);
      SplitAfterPiece(parts[0], [sep] + tail, sep);
      assert parts[0] + "" == parts[0];
      assert parts == [parts[0]] + parts[1..];
    }
  }

  /** Python's `s.replace(c, '')`. */
  function RemoveAll(s: string, c: char): (r: string)
    ensures c !in r
    ensures c !in s ==> r == s
    ensures forall x | x != c :: multiset(r)[x] == multiset(s)[x]
  {
    if |s| == 0 then ""
    else
      var head := if s[0] == c then "" else [s[0]];
      assert s == [s[0]] + s[1..];
      assert multiset(s) == multiset([s[0]]) + multiset(s[1..]);
      head + RemoveAll(s[1..], c)
  }

  /** Removing a character commutes with concatenation, so order is kept. */
  lemma {:induction false} RemoveAllAppend(a: string, b: string, c: char)
    ensures RemoveAll(a + b, c) == RemoveAll(a, c) + RemoveAll(b, c)
  {
    if |a| > 0 {
      var head := if a[0] == c then "" else [a[0]];
      assert (a + b)[0] == a[0];
      assert (a + b)[1..] == a[1..] + b;
      assert RemoveAll(a + b, c) == head + RemoveAll(a[1..] + b, c);
      assert RemoveAll(a, c) == head + RemoveAll(a[1..], c);
      RemoveAllAppend(a[1..], b, c);
    } else {
      assert a + b == b;
    }
  }

  /** Python's `a <= b` on `str`: code-point lexicographic order, a proper prefix first. */
  predicate LexLe(a: string, b: string)
  {
    |a| == 0 || (|b| > 0 && (a[0] < b[0] || (a[0] == b[0] && LexLe(a[1..], b[1..]))))
  }

  lemma {:induction false} LexLeTotal(a: string, b: string)
    ensures LexLe(a, b) || LexLe(b, a)
  {
    if |a| > 0 && |b| > 0 && a[0] == b[0] {
      LexLeTotal(a[1..], b[1..]);
    }
  }

  lemma {:induction false} LexLeTransitive(a: string, b: string, c: string)
    requires LexLe(a, b) && LexLe(b, c)
    ensures LexLe(a, c)
  {
    if |a| > 0 && a[0] == b[0] && b[0] == c[0] {
      LexLeTransitive(a[1..], b[1..], c[1..]);
    }
  }

  lemma {:induction false} LexLeAntisymmetric(a: string, b: string)
    requires LexLe(a, b) && LexLe(b, a)
    ensures a == b
  {
    if |a| > 0 {
      LexLeAntisymmetric(a[1..], b[1..]);
      assert a == [a[0]] + a[1..];
      assert b == [b[0]] + b[1..];
    }
  }

  /** Digits read from the front: the leading digit weighs `10^(|s|-1)`. */
  lemma {:induction false} DigitsValueAppend(a: string, b: string)
    requires AllDigits(a) && AllDigits(b)
    ensures AllDigits(a + b)
    ensures DigitsValue(a + b) == DigitsValue(a) * Pow10(|b|) + DigitsValue(b)
  {
    assert AllDigits(a + b) by {
      forall i | 0 <= i < |a + b| ensures IsDigit((a + b)[i]) {
        if i < |a| { assert (a + b)[i] == a[i]; } else { assert (a + b)[i] == b[i - |a|]; }
      }
    }
    if |b| > 0 {
      var b' := b[..|b| - 1];
      var d := DigitValue(b[|b| - 1]);
      assert (a + b)[..|a + b| - 1] == a + b';
      assert (a + b)[|a + b| - 1] == b[|b| - 1];
      assert AllDigits(b');
      DigitsValueAppend(a, b');
      var va, vb', p' := DigitsValue(a), DigitsValue(b'), Pow10(|b'|);
      assert DigitsValue(a + b) == DigitsValue(a + b') * 10 + d;
      assert DigitsValue(b) == vb' * 10 + d;
      assert Pow10(|b|) == p' * 10;
      Regroup(va, p', vb', d);
    } else {
      assert a + b == a;
    }
  }

  lemma Regroup(a: int, p: int, b: int, d: int)
    ensures (a * p + b) * 10 + d == a * (p * 10) + (b * 10 + d)
  {
  }

  lemma {:induction false} DigitsValueBound(s: string)
    requires AllDigits(s)
    ensures DigitsValue(s) < Pow10(|s|)
  {
    if |s| > 0 {
      DigitsValueBound(s[..|s| - 1]);
    }
  }

  lemma MultiplyMonotone(a: nat, b: nat, p: nat)
    requires a <= b
    ensures a * p <= b * p
  {
  }

  /** A digit string read from the front: the leading digit weighs `10^(|s|-1)`. */
  lemma DigitsValueFront(s: string)
    requires |s| > 0 && AllDigits(s)
    ensures AllDigits(s[1..])
    ensures DigitsValue(s) == DigitValue(s[0]) * Pow10(|s| - 1) + DigitsValue(s[1..])
  {
    var h, t := [s[0]], s[1..];
    assert s == h + t;
    assert AllDigits(t);
    assert DigitsValue(h) == DigitValue(s[0]) by {
      assert h[..0] == [];
    }
    DigitsValueAppend(h, t);
  }

  /** Two digit strings of one length whose leading digits differ are ordered by those digits. */
  lemma LeadingDigitDecides(x: string, y: string)
    requires |x| == |y| > 0 && AllDigits(x) && AllDigits(y)
    requires DigitValue(x[0]) < DigitValue(y[0])
    ensures DigitsValue(x) < DigitsValue(y)
  {
    var p := Pow10(|x| - 1);
    DigitsValueFront(x);
    DigitsValueFront(y);
    DigitsValueBound(x[1..]);
    MultiplyMonotone(DigitValue(x[0]) + 1, DigitValue(y[0]), p);
  }

  /**
    On digit strings of one length, Python's string order is numeric order: why
    sorting four-digit year texts sorts the years.
   */
  lemma {:induction false} LexLeDigits(x: string, y: string)
    requires AllDigits(x) && AllDigits(y) && |x| == |y|
    ensures LexLe(x, y) <==> DigitsValue(x) <= DigitsValue(y)
  {
    if |x| > 0 {
      if x[0] < y[0] {
        LeadingDigitDecides(x, y);
      } else if y[0] < x[0] {
        LeadingDigitDecides(y, x);
      } else {
        DigitsValueFront(x);
        DigitsValueFront(y);
        LexLeDigits(x[1..], y[1..]);
      }
    }
  }

  /** `str(n)` has exactly `k` characters when `10^(k-1) <= n < 10^k`. */
  lemma {:induction false} NatToStringLength(n: nat, k: nat)
    requires k >= 1 && Pow10(k - 1) <= n < Pow10(k)
    ensures |NatToString(n)| == k
  {
    if n >= 10 {
      assert k >= 2;
      NatToStringLength(n / 10, k - 1);
    }
  }

  /** Four-digit years compare as text exactly as they compare as numbers. */
  lemma YearTextOrder(a: int, b: int)
    requires 1000 <= a <= 9999 && 1000 <= b <= 9999
    ensures LexLe(IntToString(a), IntToString(b)) <==> a <= b
  {
    assert Pow10(3) == 1000 && Pow10(4) == 10000;
    NatToStringLength(a, 4);
    NatToStringLength(b, 4);
    LexLeDigits(IntToString(a), IntToString(b));
  }
}

=== FILE: trend_order.dfy ===
/**
  The revenue/EPS trend of the financial analysis and its ordering:
  `pd.DataFrame(trend_data).sort_values('年份')` sorts the points by their year
  TEXT. pandas' default sort is not stable, so what is promised is an ordering
  and a permutation, which pin the result down whenever the years differ.
 */
module TrendOrder {
  import opened Numbers
  import opened Strings

  /** One row of the trend frame: `年份`, `營收`, `EPS`. */
  datatype TrendPoint = TrendPoint(year: string, revenue: Number, eps: Number)

  /** Ordered by year text, as Python compares strings. */
  predicate Sorted(ps: seq<TrendPoint>) {
    forall i, j | 0 <= i < j < |ps| :: LexLe(ps[i].year, ps[j].year)
  }

  /** Every point of `ps` comes after `p`. */
  predicate AllAfter(p: TrendPoint, ps: seq<TrendPoint>) {
    forall j | 0 <= j < |ps| :: LexLe(p.year, ps[j].year)
  }

  /** A point before the first of an ordered sequence is before all of it. */
  lemma BeforeFirst(p: TrendPoint, ps: seq<TrendPoint>)
    requires Sorted(ps) && |ps| > 0 && LexLe(p.year, ps[0].year)
    ensures AllAfter(p, ps)
    ensures Sorted([p] + ps)
  {
    forall j | 0 <= j < |ps| ensures LexLe(p.year, ps[j].year) {
      if j > 0 { LexLeTransitive(p.year, ps[0].year, ps[j].year); }
    }
    var r := [p] + ps;
    forall i, j | 0 <= i < j < |r| ensures LexLe(r[i].year, r[j].year) {
      assert r[j] == ps[j - 1];
      if i > 0 { assert r[i] == ps[i - 1]; }
    }
  }

  /**
    The first point of an ordered sequence, which `p` does not precede, comes
    before every point of `rest`, a rearrangement of the others and `p`.
   */
  lemma AfterFirst(p: TrendPoint, ps: seq<TrendPoint>, rest: seq<TrendPoint>)
    requires Sorted(ps) && |ps| > 0 && !LexLe(p.year, ps[0].year)
    requires Sorted(rest) && multiset(rest) == multiset(ps[1..]) + multiset{p}
    ensures Sorted([ps[0]] + rest)
  {
    forall k | 0 <= k < |rest| ensures LexLe(ps[0].year, rest[k].year) {
      assert rest[k] in multiset(rest);
      if rest[k] == p {
        LexLeTotal(p.year, ps[0].year);
      } else {
        assert rest[k] in multiset(ps[1..]);
        var j :| 0 <= j < |ps[1..]| && ps[1..][j] == rest[k];
        assert ps[j + 1] == rest[k];
      }
    }
    var r := [ps[0]] + rest;
    forall i, j | 0 <= i < j < |r| ensures LexLe(r[i].year, r[j].year) {
      assert r[j] == rest[j - 1];
      if i > 0 { assert r[i] == rest[i - 1]; }
    }
  }

  lemma SortedRest(ps: seq<TrendPoint>)
    requires Sorted(ps) && |ps| > 0
    ensures Sorted(ps[1..])
    ensures multiset(ps) == multiset{ps[0]} + multiset(ps[1..])
  {
    assert ps == [ps[0]] + ps[1..];
  }

  /** Places one point into an ordered sequence, before the first point it does not follow. */
  function Insert(p: TrendPoint, ps: seq<TrendPoint>): (r: seq<TrendPoint>)
    requires Sorted(ps)
    ensures Sorted(r)
    ensures multiset(r) == multiset(ps) + multiset{p}
  {
    if |ps| == 0 then [p]
    else if LexLe(p.year, ps[0].year) then
      BeforeFirst(p, ps);
      [p] + ps
    else
      SortedRest(ps);
      var rest := Insert(p, ps[1..]);
      AfterFirst(p, ps, rest);
      [ps[0]] + rest
  }

  /** Insertion sort by year text. */
  function SortByYear(ps: seq<TrendPoint>): (r: seq<TrendPoint>)
    ensures Sorted(r)
    ensures multiset(r) == multiset(ps)
  {
    if |ps| == 0 then []
    else
      assert ps == [ps[0]] + ps[1..];
      Insert(ps[0], SortByYear(ps[1..]))
  }

  /** A point that follows every point already in order goes at the end. */
  lemma {:induction false} InsertAfterAll(p: TrendPoint, ps: seq<TrendPoint>)
    requires Sorted(ps)
    requires forall j | 0 <= j < |ps| :: !LexLe(p.year, ps[j].year)
    ensures Insert(p, ps) == ps + [p]
  {
    if |ps| > 0 {
      InsertAfterAll(p, ps[1..]);
      assert ps == [ps[0]] + ps[1..];
    }
  }

  function Reverse(ps: seq<TrendPoint>): (r: seq<TrendPoint>)
    ensures |r| == |ps|
    ensures forall j | 0 <= j < |ps| :: r[j] == ps[|ps| - 1 - j]
  {
    if |ps| == 0 then [] else Reverse(ps[1..]) + [ps[0]]
  }

  lemma NoneBeforeReversed(p: TrendPoint, ps: seq<TrendPoint>)
    requires forall j | 0 <= j < |ps| :: !LexLe(p.year, ps[j].year)
    ensures forall j | 0 <= j < |ps| :: !LexLe(p.year, Reverse(ps)[j].year)
  {
    var r := Reverse(ps);
    forall j | 0 <= j < |ps| ensures !LexLe(p.year, r[j].year) {
      assert r[j] == ps[|ps| - 1 - j];
    }
  }

  /** Strictly newest first by year text: no point's year comes at or before a later point's. */
  predicate NewestFirst(ps: seq<TrendPoint>) {
    forall i, j | 0 <= i < j < |ps| :: !LexLe(ps[i].year, ps[j].year)
  }

  lemma NewestFirstTail(ps: seq<TrendPoint>)
    requires NewestFirst(ps) && |ps| > 0
    ensures NewestFirst(ps[1..])
    ensures forall j | 0 <= j < |ps| - 1 :: !LexLe(ps[0].year, ps[1..][j].year)
  {
    var tail := ps[1..];
    forall i, j | 0 <= i < j < |tail| ensures !LexLe(tail[i].year, tail[j].year) {
      assert tail[i] == ps[i + 1] && tail[j] == ps[j + 1];
    }
    forall j | 0 <= j < |tail| ensures !LexLe(ps[0].year, tail[j].year) {
      assert tail[j] == ps[j + 1];
    }
  }

  /** Points listed newest first (the order yfinance reports periods in) come out oldest first. */
  lemma {:induction false} SortDescending(ps: seq<TrendPoint>)
    requires NewestFirst(ps)
    ensures SortByYear(ps) == Reverse(ps)
  {
    if |ps| > 0 {
      var tail := ps[1..];
      NewestFirstTail(ps);
      SortDescending(tail);
      var rest := Reverse(tail);
      NoneBeforeReversed(ps[0], tail);
      InsertAfterAll(ps[0], rest);
      assert SortByYear(ps) == Insert(ps[0], rest);
      assert Reverse(ps) == rest + [ps[0]];
    }
  }

  /** The first point of an ordered sequence comes before every point in it. */
  lemma FirstIsLeast(ps: seq<TrendPoint>, q: TrendPoint)
    requires Sorted(ps) && |ps| > 0 && q in multiset(ps)
    ensures LexLe(ps[0].year, q.year)
  {
    var j :| 0 <= j < |ps| && ps[j] == q;
    if j == 0 {
      LexLeTotal(q.year, q.year);
    }
  }

  /** Among the points, the year identifies the point. */
  predicate YearsIdentify(m: multiset<TrendPoint>) {
    forall p, q | p in m && q in m && p.year == q.year :: p == q
  }

  /** Two orderings of the same points, where the year identifies the point, start with the same point. */
  lemma HeadsAgree(a: seq<TrendPoint>, b: seq<TrendPoint>)
    requires Sorted(a) && Sorted(b) && YearsIdentify(multiset(a))
    requires multiset(a) == multiset(b) && |a| > 0
    ensures |b| > 0 && a[0] == b[0]
  {
    assert a[0] in multiset(b);
    assert |b| > 0;
    assert b[0] in multiset(a);
    FirstIsLeast(a, b[0]);
    FirstIsLeast(b, a[0]);
    LexLeAntisymmetric(a[0].year, b[0].year);
  }

  lemma SortedTail(b: seq<TrendPoint>)
    requires Sorted(b) && |b| > 0
    ensures Sorted(b[1..])
    ensures multiset(b[1..]) == multiset(b) - multiset{b[0]}
  {
    var t := b[1..];
    assert b == [b[0]] + t;
    forall i, j | 0 <= i < j < |t| ensures LexLe(t[i].year, t[j].year) {
      assert t[i] == b[i + 1] && t[j] == b[j + 1];
    }
  }

  lemma HeadAndTail(a: seq<TrendPoint>, b: seq<TrendPoint>)
    requires |a| > 0 && |b| > 0 && a[0] == b[0] && a[1..] == b[1..]
    ensures a == b
  {
    assert a == [a[0]] + a[1..];
    assert b == [b[0]] + b[1..];
  }

  lemma IdentifyTail(a: seq<TrendPoint>)
    requires YearsIdentify(multiset(a)) && |a| > 0
    ensures YearsIdentify(multiset(a[1..]))
  {
    assert a == [a[0]] + a[1..];
    assert multiset(a[1..]) <= multiset(a);
  }

  /**
    Any two orderings of the same points agree when no two of them share a
    year, so whichever sort pandas runs, the trend is the one `SortByYear` builds.
   */
  lemma {:induction false} SortedUnique(a: seq<TrendPoint>, b: seq<TrendPoint>)
    requires Sorted(a) && Sorted(b) && YearsIdentify(multiset(a))
    requires multiset(a) == multiset(b)
    ensures a == b
  {
    assert |a| == |multiset(a)| == |b|;
    if |a| > 0 {
      HeadsAgree(a, b);
      SortedTail(a);
      SortedTail(b);
      IdentifyTail(a);
      SortedUnique(a[1..], b[1..]);
      HeadAndTail(a, b);
    }
  }
}
